=== FILE: README.md ===
# Merlin flight model in Dafny

Merlin is a small top-down jet-fighter game. This project models its flight core.

- **Thrust curve** (`ThrustCurves`, `ThrustCurveLemmas`). An engine is a sparse table of control points that maps a throttle percentage to raw thrust. `get_thrust` sorts the keys and brackets the throttle with a scan over them. It then interpolates linearly between the two bracketing points and scales the result by the aircraft's thrust multiplier.
- **Aircraft** (`Aircrafts`). This module holds:
  - the catalog: the F-16 and Gripen profiles, with X-47B not implemented;
  - the speed-dependent turn rate, clamped to the aircraft's range;
  - Newton's-law acceleration from thrust minus quadratic drag.
- **Player** (`Players`). The aircraft in flight:
  - throttle, airbrake and turning state;
  - a drag coefficient that depends on the airbrake and the turn;
  - acceleration in which the multiplier is divided back out when decelerating;
  - a stall-speed floor on speed;
  - movement along the heading, with a teleport at the screen edges;
  - a per-frame `update` in a fixed order: speed, then turn rate, then move, then turn.
- **Playing state** (`Playing`). `PlayingGS::update` runs in three steps:
  - the actions held down this frame drive throttle, roll and airbrake;
  - the player is updated;
  - the actions released this frame are handled. Releasing Pause ends the frame with a switch to the pause state.

Some choices in the model:
- `f32` quantities are modelled as `real`.
- `u32` keys and thrust values are `nat`. Each `u32` subtraction that can go below zero is an explicit checked subtraction.
- `throttle_percent as u32` is Rust's saturating truncation.
- Parameters stand in for the outside world: the texture loader, `sin`/`cos`, the screen size and the frame time.

Two behaviours of the code are worth stating up front:
- **Turn rate.** Both branches of `calc_turn_rate` compute one straight line, `base - (speed - flip) * base / 150`. The turn rate therefore falls steadily with speed and has no peak at `turn_flip_point`: 10 below it the rate is higher than at it, and 10 above it is lower. See `TurnRateClosedForm`, `TurnRateNonIncreasing`, `TurnRateAsymmetric` and `TurnRateNoPeakAtFlip`.
- **Above the last control point.** Below the first key the scan already collapses both brackets onto that key, so the thrust there is flat at the first point's value. A curve with a single point collapses the same way above it: both brackets are that one key, so the code returns its thrust. Above the last key of a curve with two or more points, however, the code does not collapse the brackets. It leaves the first key as the upper bracket and subtracts below zero (see Findings). The model keeps the code as written (`GetThrustAsWritten`) next to a version whose upper bracket starts at the last key (`GetThrust`). That version is flat above the last point, mirroring the code's own handling below the first. The rest of the model uses this corrected version. The two are proved to agree wherever the code as written succeeds (`AsWrittenFailsExactly`), which includes every throttle the game can produce.

Files:
- `results.dfy`: the `Result` type.
- `thrust_curve.dfy`: the curve and both versions of `get_thrust`.
- `thrust_curve_lemmas.dfy`: its properties.
- `aircraft.dfy`: the catalog, turn rate and acceleration.
- `player.dfy`: the player.
- `playing.dfy`: the playing state's frame.

## Model

| member | source | states |
|---|---|---|
| ThrustCurves.New | src/aircraft.rs:172-176 | a new curve has no control points |
| ThrustCurves.AddPoint | src/aircraft.rs:178-180 | afterwards the key is present and maps to the new thrust, overwriting any earlier value |
| ThrustCurves.AddPointKeepsOthers | src/aircraft.rs:178-180 | the key set gains exactly the added key, every other point keeps its value, and the point count grows by one only for a new key |
| ThrustCurves.SortedKeysSpec | src/aircraft.rs:189-190 | the sorted key list holds exactly the map's keys, strictly increasing, one entry per key |
| ThrustCurves.ScanSpec | src/aircraft.rs:196-204 | on sorted keys the loop leaves the greatest key ≤ t as lower and the least key ≥ t as upper; a bracket with no such key keeps its starting value |
| ThrustCurves.CheckedSub | src/aircraft.rs:215 | `u32` subtraction succeeds exactly when it does not go below zero, and then gives the difference |
| ThrustCurves.BracketAsWritten | src/aircraft.rs:193-204 | both brackets start at the first key, and the scan always leaves control-point keys in them |
| ThrustCurves.GetThrustAsWritten | src/aircraft.rs:182-186 | `get_thrust` as written: an empty curve gives 0 |
| ThrustCurves.Bracket | src/aircraft.rs:193-204 | corrected brackets (upper starts at the last key): both are keys, and distinct brackets strictly enclose the throttle |
| ThrustCurves.BracketSpec | src/aircraft.rs:193-209 | within the key range the brackets are the floor and ceiling keys; an exact key gives (t,t); below the range both are the first key, above it both are the last key |
| ThrustCurves.GetThrust | src/aircraft.rs:182-186 | corrected `get_thrust`: an empty curve gives 0 |
| ThrustCurveLemmas.EmptyCurveGivesZero | src/aircraft.rs:184-186 | a fresh curve yields 0 thrust, in both versions |
| ThrustCurveLemmas.GetThrustAtControlPoint | src/aircraft.rs:207-209 | on a control point the thrust is that point's value times the multiplier |
| ThrustCurveLemmas.GetThrustBelowFirstKey | src/aircraft.rs:193-209 | below the first key the thrust is the first point's value times the multiplier |
| ThrustCurveLemmas.GetThrustAboveLastKey | src/aircraft.rs:193-209 | above the last key the corrected thrust is the last point's value times the multiplier (flat extrapolation) |
| ThrustCurveLemmas.RawThrustBetweenKeys | src/aircraft.rs:196-216 | strictly between adjacent keys l < t < u the brackets are (l,u) and the raw thrust is the linear interpolation at (t-l)/(u-l) |
| ThrustCurveLemmas.RawThrustWithinBracket | src/aircraft.rs:211-216 | the interpolated raw thrust lies between the two bracketing points' values |
| ThrustCurveLemmas.GetThrustBetweenKeys | src/aircraft.rs:211-218 | between adjacent keys the thrust is the scaled interpolation and, for a non-negative multiplier, lies between the scaled bracket values |
| ThrustCurveLemmas.RawThrustMonotone | src/aircraft.rs:193-216 | on a non-decreasing table, more throttle never gives less raw thrust |
| ThrustCurveLemmas.GetThrustMonotone | src/aircraft.rs:182-219 | on a non-decreasing table with a non-negative multiplier, `get_thrust` is non-decreasing in throttle |
| ThrustCurveLemmas.AsWrittenBracketAgrees | src/aircraft.rs:193-204 | up to the last key (or with a single point) the as-written brackets equal the corrected ones |
| ThrustCurveLemmas.AsWrittenAgrees | src/aircraft.rs:182-219 | wherever the throttle is at most the last key, or the curve has at most one point, the code as written succeeds and equals the corrected thrust |
| ThrustCurveLemmas.AsWrittenUnderflow | src/aircraft.rs:193-215 | with two or more points and a throttle above the last key, the as-written brackets are (last, first) and `upper_key - lower_key` goes below zero |
| ThrustCurveLemmas.AsWrittenFailsExactly | src/aircraft.rs:182-219 | the code as written fails exactly when the curve has two or more points and the throttle lies above its last key, and whenever it succeeds it returns the corrected thrust |
| Aircrafts.GetAircraft | src/aircraft.rs:13-105 | X-47B fails with "Aircraft not implemented"; F-16 and Gripen succeed exactly when their sprite loads, pass on the loader's error otherwise, and carry their name, sprite and engine |
| Aircrafts.CatalogValid | src/aircraft.rs:13-105 | every aircraft the catalog returns has positive mass, multiplier ≥ 1, an ordered turn clamp, non-negative drags and a non-decreasing engine table reaching 110% |
| Aircrafts.EngineCurvePoints | src/aircraft.rs:22-30 | the eight `add_point` calls build exactly the table 0→0, 25→500, 50→1500, 75→3000, 85→4000, 90→4800, 100→5000, 110→x |
| Aircrafts.CatalogThrustAt110 | src/aircraft.rs:22-73 | the F-16 stores 6000 at 110% and the Gripen 5500; both store 5000 at 100% |
| Aircrafts.EngineThrustAtKeys | src/aircraft.rs:22-30 | on the catalog tables, 0% throttle gives no thrust and 100% gives 5000 times the multiplier |
| Aircrafts.EngineCurveFacts | src/aircraft.rs:22-73 | the catalog tables are non-decreasing with keys from 0 to 110 and more than one point |
| Aircrafts.CatalogThrustSafeAndMonotone | src/aircraft.rs:182-219 | for both catalog engines and every throttle up to 110, `get_thrust` as written succeeds, equals the corrected thrust, and is non-decreasing |
| Aircrafts.F16UnderflowAt111 | src/aircraft.rs:193-215 | on the F-16's engine, the code as written fails at throttle 111 with a subtraction below zero |
| Aircrafts.CalcTurnRate | src/aircraft.rs:137-150 | the result lies in [min, max] when min ≤ max, and is min when the range is inverted |
| Aircrafts.TurnRateClosedForm | src/aircraft.rs:142-149 | both branches are one line, `base - (speed - flip) * base / 150`, clamped to [min, max] |
| Aircrafts.TurnRateNonIncreasing | src/aircraft.rs:142-149 | with a non-negative base rate, a faster aircraft never turns faster |
| Aircrafts.TurnRateAtFlipPoint | src/aircraft.rs:142-149 | at the flip point the turn rate is the base rate, when the base is inside the clamp range |
| Aircrafts.TurnRateAsymmetric | src/aircraft.rs:142-146 | inside the clamp range, the rate d below the flip point exceeds the rate d above it by 2·d·base/150 |
| Aircrafts.TurnRateNoPeakAtFlip | src/aircraft.rs:137-150 | for the catalog airframe, the rate at speed 90 is above the rate at 100, which is above the rate at 110 (no peak at the flip point) |
| Aircrafts.DragNonNegative | src/aircraft.rs:157 | with non-negative coefficient and area, drag `0.5·cd·A·v²` is non-negative at any speed |
| Aircrafts.CalculateAcceleration | src/aircraft.rs:153-162 | mass times the result is thrust minus drag; for positive mass the result is negative exactly when drag exceeds thrust |
| Aircrafts.AccelerationAsWritten | src/aircraft.rs:153-162 | wherever `get_thrust` as written succeeds, mass times the model's acceleration is that thrust minus drag, so the model computes what the source computes |
| Players.New | src/player.rs:32-49 | succeeds exactly when the Gripen loads and passes on its error otherwise; the player starts at the origin, heading 0, speed 120, throttle 60, turn rate 0.0004, full health, airbrake off and level |
| Players.NewIsFlying | src/player.rs:32-49 | a newly created player satisfies the flight invariant |
| Players.SetThrottle | src/player.rs:51-53 | the throttle becomes the given value and nothing else changes |
| Players.ThrottleAsU32 | src/player.rs:72-74 | the cast is within `u32`: 0 below zero, `u32::MAX` at or above it, and the integer part of the throttle in between |
| Players.CastExact | src/player.rs:72-74 | a whole throttle from 0 to 110 casts without loss |
| Players.DragCoefficient | src/player.rs:55-69 | the coefficient is (base + airbrake drag if braking) × (turn drag if turning, else 1) |
| Players.AirbrakeAddsDrag | src/player.rs:55-69 | opening the airbrake never lowers drag; in a turn it adds exactly airbrake drag × turn drag |
| Players.GetAcceleration | src/player.rs:71-82 | a non-negative net acceleration is returned unchanged; a negative one is returned divided by the multiplier |
| Players.AccelerationSign | src/player.rs:76-79 | with a positive multiplier the adjusted acceleration is negative exactly when the net acceleration is |
| Players.DecelerationSoftened | src/player.rs:76-79 | with a multiplier ≥ 1 a deceleration is softened, never sharpened: it stays negative and no lower than the net deceleration |
| Players.UpdateSpeed | src/player.rs:88-95 | the new speed is the larger of the stall speed and speed plus acceleration; nothing else changes |
| Players.UpdateTurnRate | src/player.rs:97-99 | the turn rate becomes the aircraft's rate at the current speed; nothing else changes |
| Players.Wrap | src/player.rs:106-119 | inside the margin-extended screen a coordinate is kept; past the far edge it jumps to -30, past the near edge to extent + 30; for a non-negative extent the result is always within [-30, extent + 30] |
| Players.WrapIdempotent | src/player.rs:106-119 | wrapping an already wrapped coordinate changes nothing |
| Players.ApplyVelocity | src/player.rs:101-120 | the position moves along (sin, cos) of the heading at speed × 0.002 per ms, y downward, and each axis is wrapped independently into the margin-extended screen; nothing else changes |
| Players.ApplyAction | src/player.rs:122-124 | the turning state becomes the given one; nothing else changes |
| Players.Update | src/player.rs:126-148 | the speed is updated first, then the turn rate from the new speed, then the move at the new speed along the old heading, then the turn by ± the new rate; throttle, health, airbrake, aircraft and state are kept |
| Players.UpdateKeepsFlying | src/player.rs:126-148 | `update` preserves the flight invariant: valid aircraft, whole throttle in [0, 110], speed ≥ stall speed |
| Players.GetThrust | src/player.rs:84-86 | the thrust equals what `get_thrust` as written returns at the truncated throttle whenever that succeeds, and for a flying player it always succeeds |
| Players.NewIsLevelGripen | src/player.rs:32-49 | a new player is exactly the level catalog Gripen, with the loaded sprite, at 60% throttle and speed 120 (the worked cases below use that Gripen) |
| Players.GripenFullThrottle | src/player.rs:71-82 | a level Gripen at 100% throttle and speed 120: drag coefficient 0.02, thrust 24545.4545, drag 4320, acceleration (24545.4545 - 4320) / 8000 |
| Players.GripenIdleDeceleration | src/player.rs:71-82 | a level idle Gripen at speed 120 has net acceleration -0.54, softened to -0.54 / 4.9090909 |
| Players.GripenIdleAtStallSpeed | src/player.rs:88-95 | an idling Gripen at its stall speed of 50 stays at exactly 50 |
| Playing.HoldThrottleUp | src/gamestate/playing.rs:50-55 | the throttle rises by one step, and anything past 100% jumps to 110%; only the throttle changes, and a whole 0-110 throttle stays one |
| Playing.HoldThrottleDown | src/gamestate/playing.rs:56-61 | the throttle falls by one step, never below 0; only the throttle changes |
| Playing.HoldRollLeft | src/gamestate/playing.rs:62-68 | a right turn is cancelled to level, otherwise the aircraft turns left; only the state changes |
| Playing.HoldRollRight | src/gamestate/playing.rs:69-75 | a left turn is cancelled to level, otherwise the aircraft turns right; only the state changes |
| Playing.HoldAirbrake | src/gamestate/playing.rs:76-80 | without toggling the brake goes on; with toggling the hold does nothing |
| Playing.HeldAction | src/gamestate/playing.rs:48-82 | one held action changes only throttle, airbrake or turning state, and keeps the throttle in range |
| Playing.ApplyHeld | src/gamestate/playing.rs:46-83 | the held actions in order leave position, heading, speed, health and aircraft alone and keep the throttle in range |
| Playing.ReleaseThrottleUp | src/gamestate/playing.rs:95-99 | the throttle becomes min(throttle, 100); nothing else changes |
| Playing.ReleaseRollLeft | src/gamestate/playing.rs:100-104 | the aircraft levels out unless it is turning right |
| Playing.ReleaseRollRight | src/gamestate/playing.rs:105-109 | the aircraft levels out unless it is turning left |
| Playing.ReleaseAirbrake | src/gamestate/playing.rs:110-116 | the brake flips when toggling and is released otherwise |
| Playing.ReleasedAction | src/gamestate/playing.rs:91-118 | one released action changes only control fields, never raises the throttle, and keeps it in range |
| Playing.ApplyReleased | src/gamestate/playing.rs:89-119 | the release loop reports a pause exactly when Pause is among the releases; it changes only control fields and never raises the throttle |
| Playing.Update | src/gamestate/playing.rs:43-122 | the held actions act first, then `Player::update`, then the released actions: the player's flight fields are those of `Player::update` applied after the held actions, and the releases can only lower the throttle; the frame asks for the pause state exactly when Pause is released, handing it the player as it is at that moment; the frame never exits and never changes the aircraft |
| Playing.AfterburnerForOneFrame | src/gamestate/playing.rs:50-99 | from 100% with ThrottleUp both held and released in one frame, the speed step uses the 110% thrust and the frame ends at 100% with no state change |
| Playing.ReleaseThrottleUpIdempotent | src/gamestate/playing.rs:95-99 | releasing ThrottleUp twice equals releasing it once; 100% or less is left alone |
| Playing.AfterburnerAndBack | src/gamestate/playing.rs:50-99 | from 100% or more, holding ThrottleUp lands on 110% and releasing it returns to 100% |
| Playing.RollMirrorSymmetry | src/gamestate/playing.rs:62-109 | RollRight held or released is RollLeft seen in a mirror |
| Playing.RollTapLevelsOut | src/gamestate/playing.rs:62-109 | pressing then releasing either roll key always leaves the aircraft level |
| Playing.BothRollsHeld | src/gamestate/playing.rs:62-75 | both roll keys held (left first) leave a level or left-turning aircraft level and a right-turning one still turning right |
| Playing.AirbrakeHoldPolicy | src/gamestate/playing.rs:76-116 | without toggling the brake is on while held and off once released |
| Playing.AirbrakeTogglePolicy | src/gamestate/playing.rs:76-116 | with toggling, a hold does nothing, a release flips the brake, and two releases restore it |
| Playing.ReleasedStopsAtPause | src/gamestate/playing.rs:89-94 | releases after a Pause are never handled |
| Playing.ReleasedThrottleUpCaps | src/gamestate/playing.rs:89-119 | a released ThrottleUp with no Pause among the releases leaves the throttle at 100% or less |
| Playing.UpdateKeepsFlying | src/gamestate/playing.rs:43-122 | a whole frame keeps a flying player flying |
| Playing.Run | src/gamestate/playing.rs:43-122 | frames played in sequence until a Pause keep the player flying and the aircraft unchanged |

## Left out

- Floating point. Every `f32` computation is exact `real` arithmetic, so rounding and NaN are not modelled. In particular, `4.9090909` is the exact decimal and not its `f32` neighbour.
- Aircrafts.CalculateAcceleration: requires a non-zero mass, because `f32` division by zero gives an infinity or NaN, which reals cannot express. Every catalog aircraft has mass 8000.
- Players.GetAcceleration: requires a non-zero mass and multiplier, for the same reason. The catalog multiplier is 4.9090909.
- Players.UpdateSpeed: requires a non-zero mass and multiplier, for the same reason.
- Players.Update: requires a non-zero mass and multiplier, for the same reason.
- Playing.Update: requires a non-zero mass and multiplier, for the same reason.
- Aircrafts.CalculateAcceleration: uses the corrected thrust, so where `get_thrust` as written panics (a throttle above the last key of a curve with two or more points, src/aircraft.rs:215) it returns a value instead. Everywhere else it agrees with the code (`Aircrafts.AccelerationAsWritten`). No throttle the game can produce reaches that case.
- Players.GetAcceleration: inherits the corrected thrust from `CalculateAcceleration`, with the same consequence.
- Players.UpdateSpeed: inherits the corrected thrust from `CalculateAcceleration`, with the same consequence.
- Players.Update: inherits the corrected thrust from `CalculateAcceleration`, with the same consequence.
- Playing.Update: inherits the corrected thrust from `CalculateAcceleration`, with the same consequence.
- Players.GetThrust: uses the corrected thrust. Where the code as written panics it returns the last point's value times the multiplier; its contract ties it to the code as written everywhere else.
- Loading textures is asynchronous I/O. It is the parameter `load` of `GetAircraft` and `New`, and a `Texture` holds only the path it came from.
- `sin` and `cos` of the heading are the parameter `sinCos`.
- `screen_width()` and `screen_height()` are the parameter `screen`.
- The frame time is `Duration::as_millis` as a `nat`. `update_speed` ignores it, as the code does, so speed changes per frame and not per second.
- src/controls.rs is not part of this model. The held and released actions arrive as sequences of `Action`, and `Other` stands for the actions the playing state ignores. The key bindings and `ControlHandler` are not modelled.
- The pause state is represented only by `ChangeState` carrying the player at the moment of the pause. The pause state's own behaviour is not modelled.
- `PlayingGS::new`, `reload_controls` and `draw` are not modelled: they are construction, configuration loading and rendering. `GameStateError` is not modelled because `update` never returns an error. Also not modelled: the HUD, `main.rs` and the game loop.
- `health` and `bullet_fire_rate` are carried as data only: nothing in the core changes or reads them.
- Thrust values are read from a `u32` table into `f32`. Values above 2^24 would lose precision in `f32`; the model reads them exactly.

## Findings

| source | as written | input that shows it | evidently intended | confidence | as-written member | corrected member |
|---|---|---|---|---|---|---|
| src/aircraft.rs:193-215 | Both brackets start at `keys[0]`. Above the last key the scan never sets the upper bracket, so it stays at the first key and the lower bracket is the last key. `upper_key - lower_key` then goes below zero on `u32`: a panic in a debug build. In a release build it wraps around: just above the last key (such as 111) the result is roughly the last point's thrust, and far above it the result moves toward the first point's thrust | F-16 engine, throttle 111 (any curve with two or more points and a throttle above its last key) | above the last key both brackets rest on the last key, giving that point's thrust. This mirrors what the same scan already does below the first key, where both brackets rest on the first key | not executed | ThrustCurves.GetThrustAsWritten, ThrustCurveLemmas.AsWrittenUnderflow, Aircrafts.F16UnderflowAt111 | ThrustCurves.GetThrust, ThrustCurveLemmas.GetThrustAboveLastKey, ThrustCurveLemmas.AsWrittenFailsExactly |

The game itself never reaches this fault. Its controls cap the throttle at 110, and both catalog engines have their last key at 110 (`Aircrafts.CatalogThrustSafeAndMonotone`, `Players.GetThrust`).

=== FILE: aircraft.dfy ===
/**
 Aircraft profiles and their flight rules (src/aircraft.rs): the catalog of flyable aircraft,
 the speed-dependent turn rate and the thrust-minus-drag acceleration. `f32` quantities are
 `real` here; `u32` ones are `nat`.
 */
module Aircrafts {
  import opened Results
  import opened ThrustCurves
  import opened ThrustCurveLemmas

  datatype AircraftType = F16 | GripenE | X47B

  /** A loaded sprite, known here only by the file it came from. */
  datatype Texture = Texture(path: string)

  /** An aircraft profile: the fields of `struct Aircraft`. */
  datatype Aircraft = Aircraft(
    name: string,
    sprite: Texture,
    maxHealth: nat,
    baseTurnRate: real,
    turnFlipPoint: real,
    maxTurnRate: real,
    minTurnRate: real,
    stallSpeed: real,
    dragBase: real,
    turnDrag: real,
    airbrakeDrag: real,
    referenceArea: real,
    mass: real,
    thrustMultiplier: real,
    bulletFireRate: nat,
    thrustCurve: ThrustCurve)

  const NotImplemented: string := "Aircraft not implemented"

  /** The highest throttle the controls can reach (`set_throttle(110.0)` on a held ThrottleUp). */
  const MaxThrottle: nat := 110

  // ---------------------------------------------------------------------------
  // The catalog
  // ---------------------------------------------------------------------------

  /** The sprite file each implemented aircraft loads. */
  function SpritePath(kind: AircraftType): string
    requires kind != X47B
  {
    match kind
    case F16 => "assets/sprites/aircraft/f16_level.png"
    case GripenE => "assets/sprites/aircraft/gripen_level.png"
  }

  /** The eight control points both catalog engines share, with the value at 110% as a parameter. */
  function EngineCurve(thrustAt110: nat): ThrustCurve
  {
    var c := New();
    var c := AddPoint(c, 0, 0);
    var c := AddPoint(c, 25, 500);
    var c := AddPoint(c, 50, 1500);
    var c := AddPoint(c, 75, 3000);
    var c := AddPoint(c, 85, 4000);
    var c := AddPoint(c, 90, 4800);
    var c := AddPoint(c, 100, 5000);
    AddPoint(c, 110, thrustAt110)
  }

  /** The F-16's engine: 6000 at 110%, although the comment beside that line reads 5500. */
  function F16Curve(): ThrustCurve
  {
    EngineCurve(6000)
  }

  function GripenCurve(): ThrustCurve
  {
    EngineCurve(5500)
  }

  /** The airframe constants, which the two implemented aircraft share. */
  function Airframe(name: string, sprite: Texture, curve: ThrustCurve): Aircraft
  {
    Aircraft(
      name := name,
      sprite := sprite,
      maxHealth := 100,
      baseTurnRate := 0.04,
      turnFlipPoint := 100.0,
      maxTurnRate := 0.06,
      minTurnRate := 0.025,
      stallSpeed := 50.0,
      dragBase := 0.02,
      turnDrag := 1.2,
      airbrakeDrag := 0.06,
      referenceArea := 30.0,
      mass := 8000.0,
      thrustMultiplier := 4.9090909,
      bulletFireRate := 10,
      thrustCurve := curve)
  }

  /** The name each implemented aircraft carries. */
  function NameOf(kind: AircraftType): string
    requires kind != X47B
  {
    match kind
    case F16 => "F-16"
    case GripenE => "Gripen"
  }

  function CurveOf(kind: AircraftType): ThrustCurve
    requires kind != X47B
  {
    match kind
    case F16 => F16Curve()
    case GripenE => GripenCurve()
  }

  /**
   A profile the flight rules can run on: positive mass and multiplier (both are divisors),
   an ordered turn-rate clamp, a non-negative stall floor, and an engine table that is
   non-decreasing and reaches the highest throttle.
   */
  predicate ValidAircraft(a: Aircraft)
  {
    && 0.0 < a.mass
    && 1.0 <= a.thrustMultiplier
    && 0.0 <= a.minTurnRate <= a.maxTurnRate
    && 0.0 <= a.baseTurnRate
    && 0.0 <= a.stallSpeed
    && 0.0 <= a.dragBase && 0.0 <= a.airbrakeDrag && 0.0 <= a.turnDrag
    && 0.0 <= a.referenceArea
    && |a.thrustCurve.points| != 0
    && MaxThrottle <= MaxKey(a.thrustCurve)
    && MonotoneCurve(a.thrustCurve)
  }

  /**
   `AircraftType::get_aircraft`, with the texture loader as a parameter: an implemented
   aircraft loads its sprite and fails with the loader's message when that fails; `X47B`
   fails with "Aircraft not implemented" without loading anything.
   */
  function GetAircraft(kind: AircraftType, load: string -> Result<Texture, string>): (r: Result<Aircraft, string>)
    ensures kind == X47B ==> r == Err(NotImplemented)
    ensures kind != X47B ==> (r.Ok? <==> load(SpritePath(kind)).Ok?)
    ensures kind != X47B && r.Err? ==> r.error == load(SpritePath(kind)).error
    ensures kind != X47B && r.Ok? ==>
              && r.value.sprite == load(SpritePath(kind)).value
              && r.value.name == NameOf(kind)
              && r.value.thrustCurve == CurveOf(kind)
  {
    match kind
    case X47B => Err(NotImplemented)
    case _ =>
      match load(SpritePath(kind))
      case Err(e) => Err(e)
      case Ok(texture) => Ok(Airframe(NameOf(kind), texture, CurveOf(kind)))
  }

  // ---------------------------------------------------------------------------
  // Turn rate
  // ---------------------------------------------------------------------------

  function Min(a: real, b: real): real
  {
    if a <= b then a else b
  }

  function Max(a: real, b: real): real
  {
    if a >= b then a else b
  }

  /** `x` pulled into `[lo, hi]`. */
  function Clamp(x: real, lo: real, hi: real): real
  {
    if x < lo then lo else if hi < x then hi else x
  }

  /**
   `Aircraft::calc_turn_rate`: a two-branch line around the flip point, clamped with
   `min_turn_rate.max(turn_rate.min(max_turn_rate))`, so that an inverted range yields the
   minimum.
   */
  function CalcTurnRate(a: Aircraft, speed: real): (r: real)
    ensures a.minTurnRate <= a.maxTurnRate ==> a.minTurnRate <= r <= a.maxTurnRate
    ensures a.maxTurnRate < a.minTurnRate ==> r == a.minTurnRate
  {
    var midpoint := a.turnFlipPoint;
    var base := a.baseTurnRate;
    var turnRate :=
      if speed <= midpoint then base + (midpoint - speed) * (base / 150.0)
      else base - (speed - midpoint) * (base / 150.0);
    Max(a.minTurnRate, Min(turnRate, a.maxTurnRate))
  }

  /** The unclamped turn rate as one straight line: both branches of the source compute it. */
  function TurnLine(a: Aircraft, speed: real): real
  {
    a.baseTurnRate - (speed - a.turnFlipPoint) * a.baseTurnRate / 150.0
  }

  /**
   The turn rate is the single line `base - (speed - flip) * base / 150` clamped into the
   aircraft's range, on either side of the flip point.
   */
  lemma TurnRateClosedForm(a: Aircraft, speed: real)
    requires a.minTurnRate <= a.maxTurnRate
    ensures CalcTurnRate(a, speed) == Clamp(TurnLine(a, speed), a.minTurnRate, a.maxTurnRate)
  {
    var base := a.baseTurnRate;
    var midpoint := a.turnFlipPoint;
    assert (midpoint - speed) * (base / 150.0) == -((speed - midpoint) * base / 150.0);
    assert (speed - midpoint) * (base / 150.0) == (speed - midpoint) * base / 150.0;
  }

  /** With a non-negative base rate, a faster aircraft never turns faster. */
  lemma TurnRateNonIncreasing(a: Aircraft, s1: real, s2: real)
    requires a.minTurnRate <= a.maxTurnRate && 0.0 <= a.baseTurnRate && s1 <= s2
    ensures CalcTurnRate(a, s2) <= CalcTurnRate(a, s1)
  {
    TurnRateClosedForm(a, s1);
    TurnRateClosedForm(a, s2);
    MulNonNegative(s2 - s1, a.baseTurnRate);
    assert TurnLine(a, s1) - TurnLine(a, s2) == (s2 - s1) * a.baseTurnRate / 150.0;
  }

  /** At the flip point the turn rate is the base rate, when the base lies in the clamp range. */
  lemma TurnRateAtFlipPoint(a: Aircraft)
    requires a.minTurnRate <= a.baseTurnRate <= a.maxTurnRate
    ensures CalcTurnRate(a, a.turnFlipPoint) == a.baseTurnRate
  {
  }

  /**
   Inside the clamp range the turn rate is not symmetric about the flip point: `d` below it
   the rate exceeds the rate `d` above it by `2 * d * base / 150`.
   */
  lemma TurnRateAsymmetric(a: Aircraft, d: real)
    requires a.minTurnRate <= a.maxTurnRate
    requires a.minTurnRate <= TurnLine(a, a.turnFlipPoint + d)
    requires TurnLine(a, a.turnFlipPoint - d) <= a.maxTurnRate
    requires 0.0 <= d && 0.0 <= a.baseTurnRate
    ensures CalcTurnRate(a, a.turnFlipPoint - d) - CalcTurnRate(a, a.turnFlipPoint + d)
         == 2.0 * d * a.baseTurnRate / 150.0
  {
    var lo, hi := a.turnFlipPoint - d, a.turnFlipPoint + d;
    TurnRateClosedForm(a, lo);
    TurnRateClosedForm(a, hi);
    MulNonNegative(d, a.baseTurnRate);
    assert TurnLine(a, lo) - TurnLine(a, hi) == 2.0 * d * a.baseTurnRate / 150.0;
  }

  /**
   The turn rate has no peak at the flip point: for the catalog airframe it is higher 10 below
   the flip point than at it, and lower 10 above it.
   */
  lemma TurnRateNoPeakAtFlip(name: string, sprite: Texture, curve: ThrustCurve)
    ensures var a := Airframe(name, sprite, curve);
            CalcTurnRate(a, 110.0) < CalcTurnRate(a, 100.0) < CalcTurnRate(a, 90.0)
  {
    var a := Airframe(name, sprite, curve);
    assert CalcTurnRate(a, 90.0) == 0.04 + 10.0 * (0.04 / 150.0);
    assert CalcTurnRate(a, 110.0) == 0.04 - 10.0 * (0.04 / 150.0);
  }

  // ---------------------------------------------------------------------------
  // Acceleration
  // ---------------------------------------------------------------------------

  /** The drag force `0.5 * cd * A * v * v`. */
  function DragForce(dragCoefficient: real, referenceArea: real, speed: real): real
  {
    0.5 * dragCoefficient * referenceArea * speed * speed
  }

  lemma DragNonNegative(dragCoefficient: real, referenceArea: real, speed: real)
    requires 0.0 <= dragCoefficient && 0.0 <= referenceArea
    ensures 0.0 <= DragForce(dragCoefficient, referenceArea, speed)
  {
    MulNonNegative(dragCoefficient, referenceArea);
    MulNonNegative(dragCoefficient * referenceArea, speed * speed);
    assert DragForce(dragCoefficient, referenceArea, speed)
        == 0.5 * ((dragCoefficient * referenceArea) * (speed * speed));
  }

  /**
   `Aircraft::calculate_acceleration`: Newton's second law for thrust minus drag. The net force
   is the mass times the result, so the result is negative exactly when drag exceeds thrust.
   */
  function CalculateAcceleration(
    curve: ThrustCurve, throttle: nat, multiplier: real,
    speed: real, dragCoefficient: real, referenceArea: real, mass: real): (r: real)
    requires mass != 0.0
    ensures r * mass
         == GetThrust(curve, throttle, multiplier) - DragForce(dragCoefficient, referenceArea, speed)
    ensures 0.0 < mass ==>
              (r < 0.0 <==> GetThrust(curve, throttle, multiplier) < DragForce(dragCoefficient, referenceArea, speed))
  {
    var thrust := GetThrust(curve, throttle, multiplier);
    var drag := DragForce(dragCoefficient, referenceArea, speed);
    var netForce := thrust - drag;
    SignOfQuotient(netForce, mass);
    netForce / mass
  }

  /**
   Wherever `get_thrust` as written succeeds, the acceleration computed from the corrected
   thrust is the one the source computes; where it fails the source panics before dividing.
   */
  lemma AccelerationAsWritten(
    curve: ThrustCurve, throttle: nat, multiplier: real,
    speed: real, dragCoefficient: real, referenceArea: real, mass: real)
    requires mass != 0.0
    ensures var written := GetThrustAsWritten(curve, throttle, multiplier);
            written.Ok? ==>
              CalculateAcceleration(curve, throttle, multiplier, speed, dragCoefficient, referenceArea, mass) * mass
              == written.value - DragForce(dragCoefficient, referenceArea, speed)
  {
    AsWrittenFailsExactly(curve, throttle, multiplier);
  }

  lemma SignOfQuotient(x: real, d: real)
    requires d != 0.0
    ensures (x / d) * d == x
    ensures 0.0 < d ==> (x / d < 0.0 <==> x < 0.0)
  {
    if 0.0 < d && x / d < 0.0 {
      MulNonNegative(-(x / d), d);
    }
    if 0.0 < d && 0.0 <= x / d {
      MulNonNegative(x / d, d);
    }
  }

  // ---------------------------------------------------------------------------
  // Facts about the catalog
  // ---------------------------------------------------------------------------

  /** The shared engine table as a map literal, with the value at 110% as a parameter. */
  function EngineTable(thrustAt110: nat): map<nat, nat>
  {
    map[0 := 0, 25 := 500, 50 := 1500, 75 := 3000, 85 := 4000, 90 := 4800, 100 := 5000, 110 := thrustAt110]
  }

  /** The eight `add_point` calls build exactly the engine table. */
  lemma EngineCurvePoints(thrustAt110: nat)
    ensures EngineCurve(thrustAt110).points == EngineTable(thrustAt110)
  {
  }

  /** The F-16 stores 6000 at 110% and the Gripen 5500; both store 5000 at 100%. */
  lemma CatalogThrustAt110()
    ensures F16Curve().points[110] == 6000 && GripenCurve().points[110] == 5500
    ensures F16Curve().points[100] == 5000 && GripenCurve().points[100] == 5000
  {
    EngineCurvePoints(6000);
    EngineCurvePoints(5500);
  }

  /** On the catalog engines' control points at 0% and 100% the thrust is exact: nothing and 5000. */
  lemma EngineThrustAtKeys(thrustAt110: nat, multiplier: real)
    ensures GetThrust(EngineCurve(thrustAt110), 0, multiplier) == Scale(0.0, multiplier)
    ensures GetThrust(EngineCurve(thrustAt110), 100, multiplier) == Scale(5000.0, multiplier)
  {
    var c := EngineCurve(thrustAt110);
    EngineCurvePoints(thrustAt110);
    assert 0 in c.points && c.points[0] == 0;
    assert 100 in c.points && c.points[100] == 5000;
    GetThrustAtControlPoint(c, 0, multiplier);
    GetThrustAtControlPoint(c, 100, multiplier);
  }

  /** The shared engine table as a step function of the key, rising from one key to the next. */
  function EngineStep(thrustAt110: nat, k: nat): nat
  {
    if k < 25 then 0
    else if k < 50 then 500
    else if k < 75 then 1500
    else if k < 85 then 3000
    else if k < 90 then 4000
    else if k < 100 then 4800
    else if k < 110 then 5000
    else thrustAt110
  }

  lemma TableIsStep(c: ThrustCurve, thrustAt110: nat)
    requires c.points == EngineTable(thrustAt110)
    ensures forall k :: k in c.points ==> c.points[k] == EngineStep(thrustAt110, k)
  {
  }

  /** The engine table is non-decreasing whenever the value at 110% is at least the one at 100%. */
  lemma TableMonotone(c: ThrustCurve, thrustAt110: nat)
    requires c.points == EngineTable(thrustAt110) && 5000 <= thrustAt110
    ensures MonotoneCurve(c)
  {
    TableIsStep(c, thrustAt110);
    forall a, b | a in c.points && b in c.points && a <= b
      ensures c.points[a] <= c.points[b]
    {
      assert c.points[a] == EngineStep(thrustAt110, a) && c.points[b] == EngineStep(thrustAt110, b);
    }
  }

  /** The engine table spans the keys 0 to 110, so it has more than one point. */
  lemma TableRange(c: ThrustCurve, thrustAt110: nat)
    requires c.points == EngineTable(thrustAt110)
    ensures MinKey(c) == 0 && MaxKey(c) == 110
    ensures |c.points| >= 2
  {
    var keys := c.points.Keys;
    assert keys == {0, 25, 50, 75, 85, 90, 100, 110};
    assert MaxKey(c) in keys;
    assert MaxKey(c) <= 110;
    assert {0, 110} <= keys;
    CardinalityOfSubset({0, 110}, keys);
  }

  lemma CardinalityOfSubset(a: set<nat>, b: set<nat>)
    requires a <= b
    ensures |a| <= |b|
  {
    assert b == a + (b - a);
  }

  /** Both catalog engines are non-decreasing tables over the keys 0 to 110. */
  lemma EngineCurveFacts(thrustAt110: nat)
    requires 5000 <= thrustAt110
    ensures MonotoneCurve(EngineCurve(thrustAt110))
    ensures |EngineCurve(thrustAt110).points| >= 2
    ensures MinKey(EngineCurve(thrustAt110)) == 0 && MaxKey(EngineCurve(thrustAt110)) == 110
  {
    EngineCurvePoints(thrustAt110);
    TableMonotone(EngineCurve(thrustAt110), thrustAt110);
    TableRange(EngineCurve(thrustAt110), thrustAt110);
  }

  /** Every aircraft the catalog returns satisfies the flight rules' assumptions. */
  lemma CatalogValid(kind: AircraftType, load: string -> Result<Texture, string>)
    requires GetAircraft(kind, load).Ok?
    ensures ValidAircraft(GetAircraft(kind, load).value)
  {
    EngineCurveFacts(6000);
    EngineCurveFacts(5500);
  }

  /**
   For the catalog engines `get_thrust` as written never fails on a throttle the controls can
   reach, and more throttle never gives less thrust.
   */
  lemma CatalogThrustSafeAndMonotone(kind: AircraftType, t1: nat, t2: nat, multiplier: real)
    requires kind != X47B && t1 <= t2 <= MaxThrottle && 0.0 <= multiplier
    ensures GetThrustAsWritten(CurveOf(kind), t2, multiplier) == Ok(GetThrust(CurveOf(kind), t2, multiplier))
    ensures GetThrust(CurveOf(kind), t1, multiplier) <= GetThrust(CurveOf(kind), t2, multiplier)
  {
    EngineCurveFacts(6000);
    EngineCurveFacts(5500);
    AsWrittenAgrees(CurveOf(kind), t2, multiplier);
    GetThrustMonotone(CurveOf(kind), t1, t2, multiplier);
  }

  /** The F-16 at 111% throttle: `get_thrust` as written subtracts below zero. */
  lemma F16UnderflowAt111(multiplier: real)
    ensures GetThrustAsWritten(F16Curve(), 111, multiplier) == Err(SubtractOverflow)
  {
    EngineCurveFacts(6000);
    AsWrittenUnderflow(F16Curve(), 111, multiplier);
  }
}

=== FILE: player.dfy ===
/**
 The player's aircraft in flight (src/player.rs): throttle, drag, acceleration with its
 stall-speed floor, turn rate, movement with wrap-around at the screen edges, and the
 per-frame `update`. `f32` quantities are `real`; the sine and cosine of the heading, the
 screen size and the texture loader are parameters.
 */
module Players {
  import opened Results
  import ThrustCurves
  import opened ThrustCurveLemmas
  import opened Aircrafts

  datatype Vec2 = Vec2(x: real, y: real)

  datatype PlayerState = Normal | TurningRight | TurningLeft

  datatype Player = Player(
    pos: Vec2,
    rotation: real,
    turnRate: real,
    speed: real,
    throttle: real,
    health: nat,
    airbrake: bool,
    aircraft: Aircraft,
    state: PlayerState)

  /** The window size that `screen_width()` and `screen_height()` report. */
  datatype Screen = Screen(width: real, height: real)

  /** How far past an edge the aircraft may fly before it reappears at the opposite one. */
  const EdgeBounds: real := 30.0

  const U32Max: nat := 0xFFFF_FFFF

  /**
   `Player::new`: a Gripen at the origin, heading 0, at speed 120 and 60% throttle, with full
   health, the airbrake off and no turn; a failure to build the aircraft is passed on.
   */
  function New(load: string -> Result<Texture, string>): (r: Result<Player, string>)
    ensures r.Ok? <==> GetAircraft(GripenE, load).Ok?
    ensures r.Err? ==> r.error == GetAircraft(GripenE, load).error
    ensures r.Ok? ==>
              var p := r.value;
              && p.aircraft == GetAircraft(GripenE, load).value
              && p.pos == Vec2(0.0, 0.0) && p.rotation == 0.0
              && p.turnRate == 0.0004 && p.speed == 120.0 && p.throttle == 60.0
              && p.health == p.aircraft.maxHealth && !p.airbrake && p.state == Normal
  {
    match GetAircraft(GripenE, load)
    case Err(e) => Err(e)
    case Ok(aircraft) =>
      Ok(Player(
        pos := Vec2(0.0, 0.0),
        rotation := 0.0,
        turnRate := 0.0004,
        speed := 120.0,
        throttle := 60.0,
        health := aircraft.maxHealth,
        airbrake := false,
        aircraft := aircraft,
        state := Normal))
  }

  /** `Player::set_throttle`: only the throttle changes. */
  function SetThrottle(p: Player, throttle: real): (r: Player)
    ensures r.throttle == throttle
    ensures r.(throttle := p.throttle) == p
  {
    p.(throttle := throttle)
  }

  /**
   `throttle_percent as u32`: Rust's float-to-integer cast truncates toward zero and
   saturates at both ends of the `u32` range.
   */
  function ThrottleAsU32(t: real): (n: nat)
    ensures n <= U32Max
    ensures t < 0.0 ==> n == 0
    ensures 0.0 <= t < U32Max as real ==> n as real <= t < n as real + 1.0
    ensures U32Max as real <= t ==> n == U32Max
  {
    if t < 0.0 then 0
    else if U32Max as real <= t then U32Max
    else t.Floor
  }

  /** `t` is a whole number. */
  predicate Integral(t: real)
  {
    t.Floor as real == t
  }

  /** On a whole, non-negative throttle within range the cast loses nothing. */
  lemma CastExact(t: real)
    requires Integral(t) && 0.0 <= t <= 110.0
    ensures ThrottleAsU32(t) as real == t
  {
  }

  predicate Turning(s: PlayerState)
  {
    s == TurningLeft || s == TurningRight
  }

  /**
   `Player::get_drag_coefficient`: the airbrake adds its drag first, and a turn then scales
   the whole sum by `turn_drag`.
   */
  function DragCoefficient(p: Player): (r: real)
    ensures r == (p.aircraft.dragBase + (if p.airbrake then p.aircraft.airbrakeDrag else 0.0))
                 * (if Turning(p.state) then p.aircraft.turnDrag else 1.0)
  {
    var a := p.aircraft;
    var cd := a.dragBase;
    var cd := if p.airbrake then cd + a.airbrakeDrag else cd;
    if Turning(p.state) then cd * a.turnDrag else cd
  }

  /**
   Opening the airbrake never lowers the drag coefficient, and in a turn its extra drag is
   multiplied by the turn factor along with the base drag.
   */
  lemma AirbrakeAddsDrag(p: Player)
    requires 0.0 <= p.aircraft.airbrakeDrag && 0.0 <= p.aircraft.turnDrag
    ensures DragCoefficient(p.(airbrake := false)) <= DragCoefficient(p.(airbrake := true))
    ensures Turning(p.state) ==>
              DragCoefficient(p.(airbrake := true)) - DragCoefficient(p.(airbrake := false))
              == p.aircraft.airbrakeDrag * p.aircraft.turnDrag
  {
    var a := p.aircraft;
    if Turning(p.state) {
      assert DragCoefficient(p.(airbrake := true)) - DragCoefficient(p.(airbrake := false))
          == (a.dragBase + a.airbrakeDrag) * a.turnDrag - a.dragBase * a.turnDrag;
      MulNonNegative(a.airbrakeDrag, a.turnDrag);
    }
  }

  /**
   `Player::get_thrust`: the engine's thrust at the truncated throttle. It is what `get_thrust`
   as written returns whenever that succeeds, and for a flying player it always succeeds: the
   cast throttle never exceeds the engine's last key.
   */
  function GetThrust(p: Player): (r: real)
    ensures var written := ThrustCurves.GetThrustAsWritten(
              p.aircraft.thrustCurve, ThrottleAsU32(p.throttle), p.aircraft.thrustMultiplier);
            && (written.Ok? ==> r == written.value)
            && (Flying(p) ==> written.Ok?)
  {
    var curve, throttle, multiplier := p.aircraft.thrustCurve, ThrottleAsU32(p.throttle), p.aircraft.thrustMultiplier;
    AsWrittenFailsExactly(curve, throttle, multiplier);
    assert Flying(p) ==> throttle as real == p.throttle by { if Flying(p) { CastExact(p.throttle); } }
    ThrustCurves.GetThrust(curve, throttle, multiplier)
  }

  /** The unadjusted acceleration `Aircraft::calculate_acceleration` gives for the player. */
  function NetAcceleration(p: Player): real
    requires p.aircraft.mass != 0.0
  {
    var a := p.aircraft;
    CalculateAcceleration(a.thrustCurve, ThrottleAsU32(p.throttle), a.thrustMultiplier,
                          p.speed, DragCoefficient(p), a.referenceArea, a.mass)
  }

  /**
   `Player::get_acceleration`: a deceleration is divided by the thrust multiplier; a
   non-negative acceleration is returned as it is.
   */
  function GetAcceleration(p: Player): (r: real)
    requires p.aircraft.mass != 0.0 && p.aircraft.thrustMultiplier != 0.0
    ensures 0.0 <= NetAcceleration(p) ==> r == NetAcceleration(p)
    ensures NetAcceleration(p) < 0.0 ==> r * p.aircraft.thrustMultiplier == NetAcceleration(p)
  {
    var acc := NetAcceleration(p);
    if acc < 0.0 then SignOfQuotient(acc, p.aircraft.thrustMultiplier); acc / p.aircraft.thrustMultiplier
    else acc
  }

  /** With a positive multiplier the adjusted acceleration has the sign of the net force. */
  lemma AccelerationSign(p: Player)
    requires p.aircraft.mass != 0.0 && 0.0 < p.aircraft.thrustMultiplier
    ensures GetAcceleration(p) < 0.0 <==> NetAcceleration(p) < 0.0
  {
    if NetAcceleration(p) < 0.0 {
      SignOfQuotient(NetAcceleration(p), p.aircraft.thrustMultiplier);
    }
  }

  /** With a multiplier of at least one a deceleration is softened, never sharpened. */
  lemma DecelerationSoftened(p: Player)
    requires p.aircraft.mass != 0.0 && 1.0 <= p.aircraft.thrustMultiplier
    requires NetAcceleration(p) < 0.0
    ensures NetAcceleration(p) <= GetAcceleration(p) < 0.0
  {
    var acc := NetAcceleration(p);
    var m := p.aircraft.thrustMultiplier;
    var r := GetAcceleration(p);
    AccelerationSign(p);
    assert r * m == acc;
    MulNonNegative(-r, m - 1.0);
  }

  /**
   `Player::update_speed`: speed grows by the acceleration but never drops below the stall
   speed. The frame time is not used.
   */
  function UpdateSpeed(p: Player): (r: Player)
    requires p.aircraft.mass != 0.0 && p.aircraft.thrustMultiplier != 0.0
    ensures r.speed == Max(p.aircraft.stallSpeed, p.speed + GetAcceleration(p))
    ensures r.(speed := p.speed) == p
  {
    var speed := p.speed + GetAcceleration(p);
    var stallSpeed := p.aircraft.stallSpeed;
    if speed < stallSpeed then p.(speed := stallSpeed) else p.(speed := speed)
  }

  /** `Player::update_turn_rate`: the turn rate follows the current speed. */
  function UpdateTurnRate(p: Player): (r: Player)
    ensures r.turnRate == CalcTurnRate(p.aircraft, p.speed)
    ensures r.(turnRate := p.turnRate) == p
  {
    p.(turnRate := CalcTurnRate(p.aircraft, p.speed))
  }

  /**
   One coordinate of the edge teleport in `apply_velocity`: past the far edge plus the margin
   it jumps to just before the near edge, and the other way round.
   */
  function Wrap(v: real, extent: real): (r: real)
    ensures 0.0 <= extent ==> -EdgeBounds <= r <= extent + EdgeBounds
    ensures -EdgeBounds <= v <= extent + EdgeBounds ==> r == v
    ensures extent + EdgeBounds < v ==> r == -EdgeBounds
    ensures v < -EdgeBounds && v <= extent + EdgeBounds ==> r == extent + EdgeBounds
  {
    if v > extent + EdgeBounds then -EdgeBounds
    else if v < -EdgeBounds then extent + EdgeBounds
    else v
  }

  /** Wrapping a coordinate that is already wrapped changes nothing. */
  lemma WrapIdempotent(v: real, extent: real)
    ensures Wrap(Wrap(v, extent), extent) == Wrap(v, extent)
  {
  }

  /** The position after moving at `speed` along the heading for `dt` milliseconds, before wrapping. */
  function Moved(pos: Vec2, speed: real, dt: nat, heading: Vec2): Vec2
  {
    var velocity := Vec2(heading.x * speed * 0.002, heading.y * speed * -0.002);
    Vec2(pos.x + velocity.x * dt as real, pos.y + velocity.y * dt as real)
  }

  /**
   `Player::apply_velocity`: move along `(sin rotation, cos rotation)`, screen y pointing down,
   then wrap each axis on its own. `sinCos` stands for the two library functions.
   */
  function ApplyVelocity(p: Player, dt: nat, sinCos: real -> Vec2, screen: Screen): (r: Player)
    ensures var moved := Moved(p.pos, p.speed, dt, sinCos(p.rotation));
            r.pos == Vec2(Wrap(moved.x, screen.width), Wrap(moved.y, screen.height))
    ensures 0.0 <= screen.width ==> -EdgeBounds <= r.pos.x <= screen.width + EdgeBounds
    ensures 0.0 <= screen.height ==> -EdgeBounds <= r.pos.y <= screen.height + EdgeBounds
    ensures r.(pos := p.pos) == p
  {
    var moved := Moved(p.pos, p.speed, dt, sinCos(p.rotation));
    p.(pos := Vec2(Wrap(moved.x, screen.width), Wrap(moved.y, screen.height)))
  }

  /** `Player::apply_action`: the turning state becomes the given one. */
  function ApplyAction(p: Player, state: PlayerState): (r: Player)
    ensures r.state == state
    ensures r.(state := p.state) == p
  {
    p.(state := state)
  }

  /** The change of heading in one frame for a turning state and turn rate. */
  function RotationStep(state: PlayerState, turnRate: real): real
  {
    match state
    case TurningLeft => -turnRate
    case TurningRight => turnRate
    case Normal => 0.0
  }

  /**
   `Player::update`: speed first, then the turn rate from the new speed, then the move along
   the heading the aircraft had at the start of the frame, and only then the turn. Throttle,
   health, airbrake, aircraft and turning state are left as they were.
   */
  function Update(p: Player, dt: nat, sinCos: real -> Vec2, screen: Screen): (r: Player)
    requires p.aircraft.mass != 0.0 && p.aircraft.thrustMultiplier != 0.0
    ensures r.speed == Max(p.aircraft.stallSpeed, p.speed + GetAcceleration(p))
    ensures r.turnRate == CalcTurnRate(p.aircraft, r.speed)
    ensures r.rotation == p.rotation + RotationStep(p.state, r.turnRate)
    ensures var moved := Moved(p.pos, r.speed, dt, sinCos(p.rotation));
            r.pos == Vec2(Wrap(moved.x, screen.width), Wrap(moved.y, screen.height))
    ensures r.throttle == p.throttle && r.health == p.health && r.airbrake == p.airbrake
    ensures r.aircraft == p.aircraft && r.state == p.state
  {
    var p := UpdateSpeed(p);
    var p := UpdateTurnRate(p);
    var p := ApplyVelocity(p, dt, sinCos, screen);
    match p.state
    case TurningLeft => p.(rotation := p.rotation - p.turnRate)
    case TurningRight => p.(rotation := p.rotation + p.turnRate)
    case Normal => p
  }

  // ---------------------------------------------------------------------------
  // Invariant of a player in flight
  // ---------------------------------------------------------------------------

  /**
   What holds of every player the game creates and updates: a valid aircraft, a whole
   throttle between 0 and 110, and a speed at or above the stall speed.
   */
  predicate Flying(p: Player)
  {
    && ValidAircraft(p.aircraft)
    && Integral(p.throttle) && 0.0 <= p.throttle <= MaxThrottle as real
    && p.aircraft.stallSpeed <= p.speed
  }

  /** A newly created player is flying. */
  lemma NewIsFlying(load: string -> Result<Texture, string>)
    requires New(load).Ok?
    ensures Flying(New(load).value)
  {
    CatalogValid(GripenE, load);
  }

  /** `update` keeps a flying player flying: it touches neither throttle nor aircraft, and floors the speed. */
  lemma UpdateKeepsFlying(p: Player, dt: nat, sinCos: real -> Vec2, screen: Screen)
    requires Flying(p)
    ensures Flying(Update(p, dt, sinCos, screen))
  {
  }

  // ---------------------------------------------------------------------------
  // Worked cases for the catalog Gripen
  // ---------------------------------------------------------------------------

  /** A level Gripen with the airbrake closed, at the given throttle and speed. */
  function LevelGripen(sprite: Texture, throttle: real, speed: real): Player
  {
    Player(Vec2(0.0, 0.0), 0.0, 0.0004, speed, throttle, 100, false,
           Airframe("Gripen", sprite, GripenCurve()), Normal)
  }

  /**
   `Player::new` builds exactly such a Gripen, at 60% throttle and speed 120, with the sprite
   the loader returned.
   */
  lemma NewIsLevelGripen(load: string -> Result<Texture, string>)
    requires New(load).Ok?
    ensures var sprite := load("assets/sprites/aircraft/gripen_level.png").value;
            New(load).value == LevelGripen(sprite, 60.0, 120.0)
  {
    var sprite := load("assets/sprites/aircraft/gripen_level.png").value;
    assert SpritePath(GripenE) == "assets/sprites/aircraft/gripen_level.png";
    assert GetAircraft(GripenE, load) == Ok(Airframe("Gripen", sprite, GripenCurve()));
  }

  /**
   At 100% throttle and speed 120 the Gripen's thrust is `5000 * 4.9090909`, its drag
   `0.5 * 0.02 * 30 * 120 * 120 = 4320`, and it accelerates by the difference over 8000.
   */
  lemma GripenFullThrottle(sprite: Texture)
    ensures var p := LevelGripen(sprite, 100.0, 120.0);
            && DragCoefficient(p) == 0.02
            && GetThrust(p) == 24545.4545
            && DragForce(DragCoefficient(p), p.aircraft.referenceArea, p.speed) == 4320.0
            && GetAcceleration(p) == (24545.4545 - 4320.0) / 8000.0
  {
    var p := LevelGripen(sprite, 100.0, 120.0);
    assert DragCoefficient(p) == 0.02;
    assert ThrottleAsU32(100.0) == 100;
    EngineThrustAtKeys(5500, 4.9090909);
    assert GetThrust(p) == ThrustCurves.Scale(5000.0, 4.9090909) == 24545.4545;
    assert DragForce(0.02, 30.0, 120.0) == 4320.0;
    var net := NetAcceleration(p);
    assert net * 8000.0 == 24545.4545 - 4320.0;
  }

  /**
   At idle the Gripen's net deceleration at speed 120 is `-4320 / 8000`, which the multiplier
   softens to `-0.54 / 4.9090909`.
   */
  lemma GripenIdleDeceleration(sprite: Texture)
    ensures var p := LevelGripen(sprite, 0.0, 120.0);
            && NetAcceleration(p) == -0.54
            && GetAcceleration(p) == -0.54 / 4.9090909
  {
    var p := LevelGripen(sprite, 0.0, 120.0);
    assert DragCoefficient(p) == 0.02;
    assert ThrottleAsU32(0.0) == 0;
    EngineThrustAtKeys(5500, 4.9090909);
    assert GetThrust(p) == ThrustCurves.Scale(0.0, 4.9090909) == 0.0;
    assert DragForce(0.02, 30.0, 120.0) == 4320.0;
    var net := NetAcceleration(p);
    assert net * 8000.0 == -4320.0;
    var r := GetAcceleration(p);
    assert r * 4.9090909 == -0.54;
  }

  /** An idling Gripen at its stall speed stays exactly at the stall speed. */
  lemma GripenIdleAtStallSpeed(sprite: Texture)
    ensures UpdateSpeed(LevelGripen(sprite, 0.0, 50.0)).speed == 50.0
  {
    var p := LevelGripen(sprite, 0.0, 50.0);
    assert DragCoefficient(p) == 0.02;
    assert ThrottleAsU32(0.0) == 0;
    EngineThrustAtKeys(5500, 4.9090909);
    assert GetThrust(p) == ThrustCurves.Scale(0.0, 4.9090909) == 0.0;
    assert DragForce(0.02, 30.0, 50.0) == 750.0;
    var net := NetAcceleration(p);
    assert net * 8000.0 == -750.0;
    AccelerationSign(p);
  }
}

=== FILE: playing.dfy ===
/**
 The flight controls of the playing game state (src/gamestate/playing.rs, `PlayingGS::update`):
 the actions held down this frame act on the player, the player is updated, and then the
 actions released this frame act on it, a released Pause ending the frame with a change to
 the pause state. The control bindings that turn keys into actions are not part of this
 model: the held and released actions arrive as sequences.
 */
module Playing {
  import opened Aircrafts
  import opened Players

  /** The actions the flight controls react to; `Other` stands for any action they ignore. */
  datatype Action = ThrottleUp | ThrottleDown | RollLeft | RollRight | Airbrake | Pause | Other

  /** What a game state asks of the game loop after a frame (src/gamestate/mod.rs). */
  datatype GameStateAction =
    | ChangeState(pausedPlayer: Player)  // switch to the pause state, which keeps a copy of the game
    | NoOp
    | Exit

  /** The outcome of one frame: the player afterwards and what the game loop should do next. */
  datatype Frame = Frame(player: Player, action: GameStateAction)

  /** The throttle step of one frame with ThrottleUp or ThrottleDown held. */
  const ThrottleIncrementation: real := 1.0

  /** Whether the airbrake toggles on release (true) or is held (false, the setting in use). */
  const AirbrakeToggle: bool := false

  /** The throttle the held ThrottleUp jumps to past 100%, and the one its release drops back to. */
  const Afterburner: real := 110.0
  const FullMilitary: real := 100.0

  /** Only the control fields (throttle, airbrake, turning state) may differ. */
  predicate SameFlight(p: Player, q: Player)
  {
    && p.pos == q.pos && p.rotation == q.rotation && p.turnRate == q.turnRate
    && p.speed == q.speed && p.health == q.health && p.aircraft == q.aircraft
  }

  /** A throttle the controls can produce: a whole percentage from 0 to 110. */
  predicate ThrottleInRange(t: real)
  {
    Integral(t) && 0.0 <= t <= Afterburner
  }

  // ---------------------------------------------------------------------------
  // Held actions
  // ---------------------------------------------------------------------------

  /** A whole throttle stays whole one step up or down. */
  lemma IntegralStep(t: real)
    ensures Integral(t) ==> Integral(t + ThrottleIncrementation) && Integral(t - ThrottleIncrementation)
  {
    assert (t + 1.0).Floor == t.Floor + 1;
    assert (t - 1.0).Floor == t.Floor - 1;
  }

  /** ThrottleUp held: one step up, and anything past 100% jumps to 110%. */
  function HoldThrottleUp(p: Player): (r: Player)
    ensures p.throttle + ThrottleIncrementation <= FullMilitary ==> r.throttle == p.throttle + ThrottleIncrementation
    ensures FullMilitary < p.throttle + ThrottleIncrementation ==> r.throttle == Afterburner
    ensures ThrottleInRange(p.throttle) ==> ThrottleInRange(r.throttle)
    ensures r == p.(throttle := r.throttle)
  {
    IntegralStep(p.throttle);
    var p := SetThrottle(p, p.throttle + ThrottleIncrementation);
    if p.throttle > FullMilitary then SetThrottle(p, Afterburner) else p
  }

  /** ThrottleDown held: one step down, never below zero. */
  function HoldThrottleDown(p: Player): (r: Player)
    ensures 0.0 <= p.throttle - ThrottleIncrementation ==> r.throttle == p.throttle - ThrottleIncrementation
    ensures p.throttle - ThrottleIncrementation < 0.0 ==> r.throttle == 0.0
    ensures ThrottleInRange(p.throttle) ==> ThrottleInRange(r.throttle)
    ensures r == p.(throttle := r.throttle)
  {
    IntegralStep(p.throttle);
    var p := SetThrottle(p, p.throttle - ThrottleIncrementation);
    if p.throttle < 0.0 then SetThrottle(p, 0.0) else p
  }

  /** RollLeft held: it cancels a right turn, and otherwise starts or keeps a left turn. */
  function HoldRollLeft(p: Player): (r: Player)
    ensures r.state == (if p.state == TurningRight then Normal else TurningLeft)
    ensures r == p.(state := r.state)
  {
    if p.state == TurningRight then p.(state := Normal) else ApplyAction(p, TurningLeft)
  }

  /** RollRight held: it cancels a left turn, and otherwise starts or keeps a right turn. */
  function HoldRollRight(p: Player): (r: Player)
    ensures r.state == (if p.state == TurningLeft then Normal else TurningRight)
    ensures r == p.(state := r.state)
  {
    if p.state == TurningLeft then p.(state := Normal) else ApplyAction(p, TurningRight)
  }

  /** Airbrake held: the brake is on while held, unless it toggles on release instead. */
  function HoldAirbrake(p: Player, toggle: bool): (r: Player)
    ensures !toggle ==> r.airbrake
    ensures toggle ==> r == p
    ensures r == p.(airbrake := r.airbrake)
  {
    if !toggle then p.(airbrake := true) else p
  }

  /** One held action, as the body of the first loop of `update`. */
  function HeldAction(p: Player, action: Action, toggle: bool): (r: Player)
    ensures SameFlight(p, r)
    ensures ThrottleInRange(p.throttle) ==> ThrottleInRange(r.throttle)
  {
    match action
    case ThrottleUp => HoldThrottleUp(p)
    case ThrottleDown => HoldThrottleDown(p)
    case RollLeft => HoldRollLeft(p)
    case RollRight => HoldRollRight(p)
    case Airbrake => HoldAirbrake(p, toggle)
    case _ => p
  }

  /** The held actions of a frame, in order. */
  function ApplyHeld(p: Player, actions: seq<Action>, toggle: bool): (r: Player)
    ensures SameFlight(p, r)
    ensures ThrottleInRange(p.throttle) ==> ThrottleInRange(r.throttle)
    decreases |actions|
  {
    if |actions| == 0 then p
    else ApplyHeld(HeldAction(p, actions[0], toggle), actions[1..], toggle)
  }

  // ---------------------------------------------------------------------------
  // Released actions
  // ---------------------------------------------------------------------------

  /** ThrottleUp released: a throttle past 100% drops back to 100%. */
  function ReleaseThrottleUp(p: Player): (r: Player)
    ensures r.throttle == Min(p.throttle, FullMilitary)
    ensures r == p.(throttle := r.throttle)
  {
    if p.throttle > FullMilitary then p.(throttle := FullMilitary) else p
  }

  /** RollLeft released: the aircraft levels out, unless it is turning right. */
  function ReleaseRollLeft(p: Player): (r: Player)
    ensures r.state == (if p.state == TurningRight then TurningRight else Normal)
    ensures r == p.(state := r.state)
  {
    if p.state != TurningRight then ApplyAction(p, Normal) else p
  }

  /** RollRight released: the aircraft levels out, unless it is turning left. */
  function ReleaseRollRight(p: Player): (r: Player)
    ensures r.state == (if p.state == TurningLeft then TurningLeft else Normal)
    ensures r == p.(state := r.state)
  {
    if p.state != TurningLeft then ApplyAction(p, Normal) else p
  }

  /** Airbrake released: the brake flips when it toggles, and is let go otherwise. */
  function ReleaseAirbrake(p: Player, toggle: bool): (r: Player)
    ensures r.airbrake == (if toggle then !p.airbrake else false)
    ensures r == p.(airbrake := r.airbrake)
  {
    if toggle then p.(airbrake := !p.airbrake) else p.(airbrake := false)
  }

  /** One released action other than Pause, as the body of the second loop of `update`. */
  function ReleasedAction(p: Player, action: Action, toggle: bool): (r: Player)
    ensures SameFlight(p, r)
    ensures ThrottleInRange(p.throttle) ==> ThrottleInRange(r.throttle)
    ensures r.throttle <= p.throttle
  {
    match action
    case ThrottleUp => ReleaseThrottleUp(p)
    case RollLeft => ReleaseRollLeft(p)
    case RollRight => ReleaseRollRight(p)
    case Airbrake => ReleaseAirbrake(p, toggle)
    case _ => p
  }

  /** The player after the released actions, and whether a released Pause ended the loop. */
  datatype Released = Released(player: Player, paused: bool)

  /** The released actions of a frame in order, stopping at the first Pause. */
  function ApplyReleased(p: Player, actions: seq<Action>, toggle: bool): (r: Released)
    ensures r.paused <==> Pause in actions
    ensures SameFlight(p, r.player)
    ensures ThrottleInRange(p.throttle) ==> ThrottleInRange(r.player.throttle)
    ensures r.player.throttle <= p.throttle
    decreases |actions|
  {
    if |actions| == 0 then Released(p, false)
    else if actions[0] == Pause then Released(p, true)
    else
      var r := ApplyReleased(ReleasedAction(p, actions[0], toggle), actions[1..], toggle);
      assert Pause in actions <==> Pause in actions[1..] by {
        assert actions == [actions[0]] + actions[1..];
      }
      r
  }

  // ---------------------------------------------------------------------------
  // The frame
  // ---------------------------------------------------------------------------

  /**
   `PlayingGS::update`: the held actions, then `Player::update`, then the released actions;
   a released Pause switches to the pause state with a copy of the game as it is at that
   moment, and every other frame asks for nothing.
   */
  function Update(p: Player, held: seq<Action>, released: seq<Action>,
                  dt: nat, sinCos: real -> Vec2, screen: Screen): (r: Frame)
    requires p.aircraft.mass != 0.0 && p.aircraft.thrustMultiplier != 0.0
    ensures r.action.ChangeState? <==> Pause in released
    ensures r.action.ChangeState? ==> r.action.pausedPlayer == r.player
    ensures !r.action.Exit?
    ensures r.player.aircraft == p.aircraft
    ensures var flown := Players.Update(ApplyHeld(p, held, AirbrakeToggle), dt, sinCos, screen);
            SameFlight(flown, r.player) && r.player.throttle <= flown.throttle
  {
    var p := ApplyHeld(p, held, AirbrakeToggle);
    var p := Players.Update(p, dt, sinCos, screen);
    var released := ApplyReleased(p, released, AirbrakeToggle);
    if released.paused then Frame(released.player, ChangeState(released.player))
    else Frame(released.player, NoOp)
  }

  // ---------------------------------------------------------------------------
  // Properties of the controls
  // ---------------------------------------------------------------------------

  /**
   The physics step sees the held actions but not the released ones: with ThrottleUp held and
   released in one frame from 100%, the speed step runs on the 110% afterburner thrust, and
   the frame still ends at 100%.
   */
  lemma AfterburnerForOneFrame(p: Player, dt: nat, sinCos: real -> Vec2, screen: Screen)
    requires Flying(p) && p.throttle == FullMilitary
    ensures var r := Update(p, [ThrottleUp], [ThrottleUp], dt, sinCos, screen);
            && r.action == NoOp
            && r.player.speed == Max(p.aircraft.stallSpeed, p.speed + GetAcceleration(p.(throttle := Afterburner)))
            && r.player.throttle == FullMilitary
  {
    var boosted := ApplyHeld(p, [ThrottleUp], AirbrakeToggle);
    assert [ThrottleUp][1..] == [];
    assert boosted == HoldThrottleUp(p) == p.(throttle := Afterburner);
    var flown := Players.Update(boosted, dt, sinCos, screen);
    var released := ApplyReleased(flown, [ThrottleUp], AirbrakeToggle);
    assert released.player == ReleaseThrottleUp(flown);
  }

  /** Releasing ThrottleUp twice is the same as releasing it once, and leaves 100% or less alone. */
  lemma ReleaseThrottleUpIdempotent(p: Player)
    ensures ReleaseThrottleUp(ReleaseThrottleUp(p)) == ReleaseThrottleUp(p)
    ensures p.throttle <= FullMilitary ==> ReleaseThrottleUp(p) == p
  {
  }

  /** Holding ThrottleUp from 100% or more lands on 110%; its release then brings it to 100%. */
  lemma AfterburnerAndBack(p: Player)
    requires FullMilitary <= p.throttle
    ensures HoldThrottleUp(p).throttle == Afterburner
    ensures ReleaseThrottleUp(HoldThrottleUp(p)).throttle == FullMilitary
  {
  }

  /** The turning state seen in a mirror: left and right swap. */
  function MirrorState(s: PlayerState): PlayerState
  {
    match s
    case TurningLeft => TurningRight
    case TurningRight => TurningLeft
    case Normal => Normal
  }

  function Mirror(p: Player): Player
  {
    p.(state := MirrorState(p.state))
  }

  /** RollRight behaves as RollLeft does in a mirror, whether held or released. */
  lemma RollMirrorSymmetry(p: Player)
    ensures HoldRollRight(p) == Mirror(HoldRollLeft(Mirror(p)))
    ensures ReleaseRollRight(p) == Mirror(ReleaseRollLeft(Mirror(p)))
  {
  }

  /** A press and release of a roll key, with nothing in between, always leaves the aircraft level. */
  lemma RollTapLevelsOut(p: Player)
    ensures ReleaseRollLeft(HoldRollLeft(p)).state == Normal
    ensures ReleaseRollRight(HoldRollRight(p)).state == Normal
  {
  }

  /**
   Both roll keys held in one frame, left handled first: a level or left-turning aircraft ends
   level, and a right-turning one keeps turning right.
   */
  lemma BothRollsHeld(p: Player)
    ensures HoldRollRight(HoldRollLeft(p)).state == (if p.state == TurningRight then TurningRight else Normal)
  {
  }

  /** With the airbrake held (not toggled), it is on while the key is down and off once released. */
  lemma AirbrakeHoldPolicy(p: Player)
    ensures HoldAirbrake(p, false).airbrake
    ensures !ReleaseAirbrake(HoldAirbrake(p, false), false).airbrake
  {
  }

  /** With the airbrake toggled, holding does nothing and two releases restore the brake. */
  lemma AirbrakeTogglePolicy(p: Player)
    ensures HoldAirbrake(p, true) == p
    ensures ReleaseAirbrake(p, true).airbrake != p.airbrake
    ensures ReleaseAirbrake(ReleaseAirbrake(p, true), true) == p
  {
  }

  /** Released actions after a Pause are never handled. */
  lemma {:induction false} ReleasedStopsAtPause(p: Player, before: seq<Action>, after: seq<Action>, toggle: bool)
    ensures ApplyReleased(p, before + [Pause] + after, toggle) == ApplyReleased(p, before + [Pause], toggle)
    decreases |before|
  {
    if |before| == 0 {
      assert (before + [Pause] + after)[0] == Pause;
      assert (before + [Pause])[0] == Pause;
    } else {
      var q := ReleasedAction(p, before[0], toggle);
      assert (before + [Pause] + after)[1..] == before[1..] + [Pause] + after;
      assert (before + [Pause])[1..] == before[1..] + [Pause];
      assert (before + [Pause] + after)[0] == before[0] && (before + [Pause])[0] == before[0];
      ReleasedStopsAtPause(q, before[1..], after, toggle);
    }
  }

  /** A released ThrottleUp, with no Pause among the releases, leaves the throttle at 100% or less. */
  lemma {:induction false} ReleasedThrottleUpCaps(p: Player, actions: seq<Action>, toggle: bool)
    requires ThrottleUp in actions && Pause !in actions
    ensures ApplyReleased(p, actions, toggle).player.throttle <= FullMilitary
    decreases |actions|
  {
    var q := ReleasedAction(p, actions[0], toggle);
    if actions[0] == ThrottleUp {
      assert q.throttle <= FullMilitary;
    } else {
      assert actions == [actions[0]] + actions[1..];
      ReleasedThrottleUpCaps(q, actions[1..], toggle);
    }
  }

  /** A frame keeps a flying player flying: throttle stays a whole 0 to 110, speed stays above stall. */
  lemma UpdateKeepsFlying(p: Player, held: seq<Action>, released: seq<Action>,
                          dt: nat, sinCos: real -> Vec2, screen: Screen)
    requires Flying(p)
    ensures Flying(Update(p, held, released, dt, sinCos, screen).player)
  {
    var q := ApplyHeld(p, held, AirbrakeToggle);
    Players.UpdateKeepsFlying(q, dt, sinCos, screen);
  }

  /** The input of one frame: the actions held down, the actions released, the frame time in ms. */
  datatype Input = Input(held: seq<Action>, released: seq<Action>, dt: nat)

  /** Frames played one after another until the input runs out or a Pause is released. */
  function Run(p: Player, inputs: seq<Input>, sinCos: real -> Vec2, screen: Screen): (r: Player)
    requires Flying(p)
    ensures Flying(r)
    ensures r.aircraft == p.aircraft
    decreases |inputs|
  {
    if |inputs| == 0 then p
    else
      var frame := Update(p, inputs[0].held, inputs[0].released, inputs[0].dt, sinCos, screen);
      UpdateKeepsFlying(p, inputs[0].held, inputs[0].released, inputs[0].dt, sinCos, screen);
      if frame.action.ChangeState? then frame.player
      else Run(frame.player, inputs[1..], sinCos, screen)
  }
}

=== FILE: results.dfy ===
/** Rust's `Result`, used for the catalog's and the constructors' error returns. */
module Results {

  datatype Result<+T, +E> = Ok(value: T) | Err(error: E)

}

=== FILE: thrust_curve.dfy ===
/**
 The engine thrust curve of an aircraft (src/aircraft.rs, `ThrustCurve`): a sparse table of
 control points from throttle percentage to raw thrust, read back by a bracketing scan over
 the sorted keys followed by linear interpolation. Throttle keys and thrust values are `u32`
 in the source and `nat` here; thrust is computed over `real` instead of `f32`.

 The functions here carry only the contracts their callers need to be well defined; what
 they compute is stated by the lemmas next to them and in `ThrustCurveLemmas`.
 */
module ThrustCurves {
  import opened Results

  datatype ThrustCurve = ThrustCurve(points: map<nat, nat>)

  /** The run-time failure the as-written `get_thrust` can hit: `u32` subtraction below zero. */
  datatype Fault = SubtractOverflow

  /** `ThrustCurve::new`: a curve with no control points. */
  function New(): (c: ThrustCurve)
    ensures |c.points| == 0
  {
    ThrustCurve(map[])
  }

  /** `ThrustCurve::add_point`: insert a control point, overwriting any earlier value at that key. */
  function AddPoint(c: ThrustCurve, throttle: nat, thrust: nat): (r: ThrustCurve)
    ensures throttle in r.points && r.points[throttle] == thrust
  {
    ThrustCurve(c.points[throttle := thrust])
  }

  /**
   Adding a point adds exactly its key and leaves every other point as it was; adding one at
   an existing key replaces its value without adding a key.
   */
  lemma AddPointKeepsOthers(c: ThrustCurve, throttle: nat, thrust: nat)
    ensures AddPoint(c, throttle, thrust).points.Keys == c.points.Keys + {throttle}
    ensures forall k :: k in c.points && k != throttle ==> AddPoint(c, throttle, thrust).points[k] == c.points[k]
    ensures throttle in c.points ==> |AddPoint(c, throttle, thrust).points| == |c.points|
    ensures throttle !in c.points ==> |AddPoint(c, throttle, thrust).points| == |c.points| + 1
  {
  }

  // ---------------------------------------------------------------------------
  // Sorting the keys
  // ---------------------------------------------------------------------------

  predicate StrictlyIncreasing(s: seq<nat>)
  {
    forall i, j :: 0 <= i < j < |s| ==> s[i] < s[j]
  }

  /** A least element of a non-empty set, found by removing elements one at a time. */
  ghost function LeastOf(s: set<nat>): (k: nat)
    requires s != {}
    ensures k in s && forall x :: x in s ==> k <= x
    decreases s
  {
    var y :| y in s;
    if s == {y} then y
    else
      var m := LeastOf(s - {y});
      assert forall x :: x in s ==> x == y || x in s - {y};
      if y < m then y else m
  }

  /** The least element of a non-empty set of keys. */
  function Minimum(s: set<nat>): (k: nat)
    requires s != {}
    ensures k in s && forall x :: x in s ==> k <= x
  {
    assert LeastOf(s) in s;
    var k :| k in s && forall x :: x in s ==> k <= x;
    k
  }

  /** `keys.sort()` over the map's key set (see `SortedKeysSpec`). */
  function SortedKeys(s: set<nat>): seq<nat>
    decreases s
  {
    if s == {} then []
    else
      var k := Minimum(s);
      [k] + SortedKeys(s - {k})
  }

  /** The sorted keys are exactly the keys of the set, each once. */
  lemma {:induction false} SortedKeysMembers(s: set<nat>)
    ensures |SortedKeys(s)| == |s|
    ensures forall k :: k in SortedKeys(s) <==> k in s
    decreases s
  {
    if s != {} {
      var k := Minimum(s);
      var rest := SortedKeys(s - {k});
      SortedKeysMembers(s - {k});
      assert SortedKeys(s) == [k] + rest;
      assert |s - {k}| == |s| - 1;
      forall x
        ensures x in SortedKeys(s) <==> x in s
      {
        assert x in SortedKeys(s) <==> x == k || x in rest;
      }
    }
  }

  /** The sorted keys are in strictly increasing order. */
  lemma {:induction false} SortedKeysIncreasing(s: set<nat>)
    ensures StrictlyIncreasing(SortedKeys(s))
    decreases s
  {
    if s != {} {
      var k := Minimum(s);
      var rest := SortedKeys(s - {k});
      SortedKeysMembers(s - {k});
      SortedKeysIncreasing(s - {k});
      var keys := [k] + rest;
      assert SortedKeys(s) == keys;
      forall i, j | 0 <= i < j < |keys|
        ensures keys[i] < keys[j]
      {
        assert keys[j] == rest[j - 1] && rest[j - 1] in s - {k};
        if i > 0 {
          assert keys[i] == rest[i - 1];
        }
      }
    }
  }

  /** The sorted keys hold every key of the set once, in strictly increasing order. */
  lemma SortedKeysSpec(s: set<nat>)
    ensures |SortedKeys(s)| == |s|
    ensures forall k :: k in SortedKeys(s) <==> k in s
    ensures StrictlyIncreasing(SortedKeys(s))
  {
    SortedKeysMembers(s);
    SortedKeysIncreasing(s);
  }

  function Last(keys: seq<nat>): nat
    requires |keys| > 0
  {
    keys[|keys| - 1]
  }

  // ---------------------------------------------------------------------------
  // The bracketing scan
  // ---------------------------------------------------------------------------

  /**
   The `for &key in &keys` loop, one key per call: a key at or below `t` becomes the lower
   bracket, and the first key at or above `t` becomes the upper bracket and ends the scan.
   */
  function Scan(keys: seq<nat>, t: nat, lower: nat, upper: nat): (nat, nat)
    decreases |keys|
  {
    if keys == [] then (lower, upper)
    else
      var key := keys[0];
      var lower' := if key <= t then key else lower;
      if key >= t then (lower', key)
      else Scan(keys[1..], t, lower', upper)
  }

  /**
   On sorted keys the scan leaves the greatest key at or below `t` in the lower bracket and
   the least key at or above `t` in the upper one; when there is no such key, that bracket
   keeps the value it started with.
   */
  lemma {:induction false} ScanSpec(keys: seq<nat>, t: nat, lower: nat, upper: nat)
    requires StrictlyIncreasing(keys)
    ensures var b := Scan(keys, t, lower, upper);
            |keys| > 0 && keys[0] <= t ==>
              b.0 in keys && b.0 <= t && forall i :: 0 <= i < |keys| && keys[i] <= t ==> keys[i] <= b.0
    ensures var b := Scan(keys, t, lower, upper);
            (|keys| == 0 || t < keys[0]) ==> b.0 == lower
    ensures var b := Scan(keys, t, lower, upper);
            |keys| > 0 && t <= Last(keys) ==>
              b.1 in keys && t <= b.1 && forall i :: 0 <= i < |keys| && t <= keys[i] ==> b.1 <= keys[i]
    ensures var b := Scan(keys, t, lower, upper);
            (|keys| == 0 || Last(keys) < t) ==> b.1 == upper
    decreases |keys|
  {
    if keys != [] && keys[0] < t {
      var rest := keys[1..];
      ScanSpec(rest, t, keys[0], upper);
      assert forall i :: 1 <= i < |keys| ==> keys[i] == rest[i - 1];
      assert |rest| > 0 ==> Last(rest) == Last(keys);
    }
  }

  /** `k` is the greatest key at or below `t`. */
  predicate IsFloorKey(points: map<nat, nat>, t: nat, k: nat)
  {
    k in points && k <= t && forall j :: j in points && j <= t ==> j <= k
  }

  /** `k` is the least key at or above `t`. */
  predicate IsCeilKey(points: map<nat, nat>, t: nat, k: nat)
  {
    k in points && t <= k && forall j :: j in points && t <= j ==> k <= j
  }

  /** The smallest control-point key. */
  function MinKey(c: ThrustCurve): (k: nat)
    requires |c.points| != 0
    ensures k in c.points && forall j :: j in c.points ==> k <= j
  {
    SortedKeysSpec(c.points.Keys);
    var keys := SortedKeys(c.points.Keys);
    assert forall j :: j in c.points ==> keys[0] <= j by {
      forall j | j in c.points
        ensures keys[0] <= j
      {
        var i :| 0 <= i < |keys| && keys[i] == j;
      }
    }
    keys[0]
  }

  /** The largest control-point key. */
  function MaxKey(c: ThrustCurve): (k: nat)
    requires |c.points| != 0
    ensures k in c.points && forall j :: j in c.points ==> j <= k
  {
    SortedKeysSpec(c.points.Keys);
    var keys := SortedKeys(c.points.Keys);
    assert forall j :: j in c.points ==> j <= Last(keys) by {
      forall j | j in c.points
        ensures j <= Last(keys)
      {
        var i :| 0 <= i < |keys| && keys[i] == j;
      }
    }
    Last(keys)
  }

  /** What the scan over all the sorted keys yields, in terms of the map's keys. */
  lemma ScanOverKeys(c: ThrustCurve, t: nat, lower: nat, upper: nat)
    requires |c.points| != 0
    ensures var keys := SortedKeys(c.points.Keys);
            |keys| > 0 && keys[0] == MinKey(c) && Last(keys) == MaxKey(c)
    ensures var b := Scan(SortedKeys(c.points.Keys), t, lower, upper);
            && (MinKey(c) <= t ==> IsFloorKey(c.points, t, b.0))
            && (t < MinKey(c) ==> b.0 == lower)
            && (t <= MaxKey(c) ==> IsCeilKey(c.points, t, b.1))
            && (MaxKey(c) < t ==> b.1 == upper)
  {
    var keys := SortedKeys(c.points.Keys);
    SortedKeysSpec(c.points.Keys);
    ScanSpec(keys, t, lower, upper);
    var b := Scan(keys, t, lower, upper);
    if keys[0] <= t {
      forall j | j in c.points && j <= t
        ensures j <= b.0
      {
        assert j in keys;
        var i :| 0 <= i < |keys| && keys[i] == j;
      }
    }
    if t <= Last(keys) {
      forall j | j in c.points && t <= j
        ensures b.1 <= j
      {
        assert j in keys;
        var i :| 0 <= i < |keys| && keys[i] == j;
      }
    }
  }

  // ---------------------------------------------------------------------------
  // Interpolation
  // ---------------------------------------------------------------------------

  /**
   How far `throttle` lies from the lower bracket towards the upper one:
   `(throttle_percent - lower_key) / (upper_key - lower_key)`.
   */
  function Fraction(throttle: nat, lowerKey: nat, upperKey: nat): real
    requires lowerKey <= throttle && lowerKey < upperKey
  {
    (throttle - lowerKey) as real / (upperKey - lowerKey) as real
  }

  /** The final `* self.thrust_multiplier` of either return path. */
  function Scale(raw: real, multiplier: real): real
  {
    raw * multiplier
  }

  /** `lower_thrust + fraction * (upper_thrust - lower_thrust)`. */
  function Lerp(lowerThrust: nat, upperThrust: nat, fraction: real): real
  {
    lowerThrust as real + fraction * (upperThrust as real - lowerThrust as real)
  }

  // ---------------------------------------------------------------------------
  // get_thrust as written
  // ---------------------------------------------------------------------------

  /** Subtraction on `u32`: a debug build panics ("attempt to subtract with overflow") below zero. */
  function CheckedSub(a: nat, b: nat): (r: Result<nat, Fault>)
    ensures r.Ok? <==> b <= a
    ensures r.Ok? ==> r.value + b == a
  {
    if b <= a then Ok(a - b) else Err(SubtractOverflow)
  }

  /** The brackets exactly as `get_thrust` computes them: both start at the smallest key. */
  function BracketAsWritten(c: ThrustCurve, t: nat): (b: (nat, nat))
    requires |c.points| != 0
    ensures b.0 in c.points && b.1 in c.points
  {
    ScanOverKeys(c, t, MinKey(c), MinKey(c));
    var keys := SortedKeys(c.points.Keys);
    Scan(keys, t, keys[0], keys[0])
  }

  /**
   The unscaled thrust of `get_thrust` as written, the value that either return path
   multiplies by `thrust_multiplier`. Both key differences are `u32` subtractions.
   */
  function RawThrustAsWritten(c: ThrustCurve, throttle: nat): Result<real, Fault>
    requires |c.points| != 0
  {
    var b := BracketAsWritten(c, throttle);
    if b.0 == b.1 then Ok(c.points[b.0] as real)
    else
      var num := CheckedSub(throttle, b.0);
      var den := CheckedSub(b.1, b.0);
      if num.Err? then Err(num.error)
      else if den.Err? then Err(den.error)
      else Ok(Lerp(c.points[b.0], c.points[b.1], Fraction(throttle, b.0, b.1)))
  }

  /** `ThrustCurve::get_thrust` exactly as written. */
  function GetThrustAsWritten(c: ThrustCurve, throttle: nat, multiplier: real): (r: Result<real, Fault>)
    ensures |c.points| == 0 ==> r == Ok(0.0)
  {
    if |c.points| == 0 then Ok(0.0)
    else
      match RawThrustAsWritten(c, throttle)
      case Ok(raw) => Ok(Scale(raw, multiplier))
      case Err(e) => Err(e)
  }

  // ---------------------------------------------------------------------------
  // get_thrust with flat extrapolation above the last key
  // ---------------------------------------------------------------------------

  /**
   The corrected brackets: the same scan with the upper bracket starting at the LARGEST
   key, so that above the last control point both brackets rest on it.
   */
  function Bracket(c: ThrustCurve, t: nat): (b: (nat, nat))
    requires |c.points| != 0
    ensures b.0 in c.points && b.1 in c.points
    ensures b.0 != b.1 ==> b.0 < t < b.1
  {
    ScanOverKeys(c, t, MinKey(c), MaxKey(c));
    var keys := SortedKeys(c.points.Keys);
    Scan(keys, t, keys[0], Last(keys))
  }

  /**
   The corrected brackets are the tightest pair of keys around the throttle, or collapse onto
   one key: the throttle itself when it is a key, the first key below the key range and the
   last key above it.
   */
  lemma BracketSpec(c: ThrustCurve, t: nat)
    requires |c.points| != 0
    ensures var b := Bracket(c, t);
            MinKey(c) <= t <= MaxKey(c) ==> IsFloorKey(c.points, t, b.0) && IsCeilKey(c.points, t, b.1)
    ensures t in c.points ==> Bracket(c, t) == (t, t)
    ensures t < MinKey(c) ==> Bracket(c, t) == (MinKey(c), MinKey(c))
    ensures MaxKey(c) < t ==> Bracket(c, t) == (MaxKey(c), MaxKey(c))
  {
    ScanOverKeys(c, t, MinKey(c), MaxKey(c));
    var b := Bracket(c, t);
    if t < MinKey(c) {
      assert IsCeilKey(c.points, t, b.1);
    } else if MaxKey(c) < t {
      assert IsFloorKey(c.points, t, b.0);
    } else {
      assert IsFloorKey(c.points, t, b.0) && IsCeilKey(c.points, t, b.1);
    }
  }

  /** The unscaled thrust of the corrected `get_thrust`. */
  function RawThrust(c: ThrustCurve, throttle: nat): real
    requires |c.points| != 0
  {
    var b := Bracket(c, throttle);
    if b.0 == b.1 then c.points[b.0] as real
    else Lerp(c.points[b.0], c.points[b.1], Fraction(throttle, b.0, b.1))
  }

  /**
   `get_thrust` with flat extrapolation above the last control point; it agrees with the
   as-written code wherever that code does not fail (`ThrustCurveLemmas.AsWrittenAgrees`).
   */
  function GetThrust(c: ThrustCurve, throttle: nat, multiplier: real): (r: real)
    ensures |c.points| == 0 ==> r == 0.0
  {
    if |c.points| == 0 then 0.0 else Scale(RawThrust(c, throttle), multiplier)
  }
}

=== FILE: thrust_curve_lemmas.dfy ===
/**
 Properties of `ThrustCurves.GetThrust` and `ThrustCurves.GetThrustAsWritten`: exact values on
 the control points, flat extrapolation, the interpolation formula between two adjacent keys,
 monotonicity for a non-decreasing table, and where the as-written scan fails.
 */
module ThrustCurveLemmas {
  import opened Results
  import opened ThrustCurves

  /** Thrust values never decrease as the throttle key grows. */
  predicate MonotoneCurve(c: ThrustCurve)
  {
    forall a, b :: a in c.points && b in c.points && a <= b ==> c.points[a] <= c.points[b]
  }

  // ---------------------------------------------------------------------------
  // Real-arithmetic steps, kept apart so that each proof sees one of them at a time
  // ---------------------------------------------------------------------------

  lemma MulNonNegative(a: real, b: real)
    requires 0.0 <= a && 0.0 <= b
    ensures 0.0 <= a * b
  {
  }

  lemma ScaleMonotone(a: real, b: real, multiplier: real)
    requires a <= b && 0.0 <= multiplier
    ensures Scale(a, multiplier) <= Scale(b, multiplier)
  {
    MulNonNegative(b - a, multiplier);
  }

  lemma DivideWithin(num: real, den: real)
    requires 0.0 <= num <= den && 0.0 < den
    ensures 0.0 <= num / den <= 1.0
  {
    var f := num / den;
    assert f * den == num;
    if f < 0.0 {
      MulNonNegative(-f, den);
    }
    if 1.0 < f {
      MulNonNegative(f - 1.0, den);
    }
  }

  lemma FractionBounds(throttle: nat, lowerKey: nat, upperKey: nat)
    requires lowerKey <= throttle <= upperKey && lowerKey < upperKey
    ensures 0.0 <= Fraction(throttle, lowerKey, upperKey) <= 1.0
  {
    DivideWithin((throttle - lowerKey) as real, (upperKey - lowerKey) as real);
  }

  lemma FractionMonotone(t1: nat, t2: nat, lowerKey: nat, upperKey: nat)
    requires lowerKey <= t1 <= t2 && lowerKey < upperKey
    ensures Fraction(t1, lowerKey, upperKey) <= Fraction(t2, lowerKey, upperKey)
  {
    var den := (upperKey - lowerKey) as real;
    assert Fraction(t2, lowerKey, upperKey) - Fraction(t1, lowerKey, upperKey) == (t2 - t1) as real / den;
  }

  lemma LerpBetween(lo: nat, hi: nat, fraction: real)
    requires 0.0 <= fraction <= 1.0
    ensures lo <= hi ==> lo as real <= Lerp(lo, hi, fraction) <= hi as real
    ensures hi <= lo ==> hi as real <= Lerp(lo, hi, fraction) <= lo as real
  {
    var d := hi as real - lo as real;
    if lo <= hi {
      MulNonNegative(fraction, d);
      MulNonNegative(1.0 - fraction, d);
    } else {
      MulNonNegative(fraction, -d);
      MulNonNegative(1.0 - fraction, -d);
    }
  }

  lemma LerpMonotone(lo: nat, hi: nat, f1: real, f2: real)
    requires lo <= hi && f1 <= f2
    ensures Lerp(lo, hi, f1) <= Lerp(lo, hi, f2)
  {
    MulNonNegative(f2 - f1, hi as real - lo as real);
  }

  // ---------------------------------------------------------------------------
  // Exact values and extrapolation
  // ---------------------------------------------------------------------------

  /** An empty curve gives no thrust, whatever the throttle and multiplier. */
  lemma EmptyCurveGivesZero(throttle: nat, multiplier: real)
    ensures GetThrust(New(), throttle, multiplier) == 0.0
    ensures GetThrustAsWritten(New(), throttle, multiplier) == Ok(0.0)
  {
  }

  /** On a control point the thrust is that point's value times the multiplier, exactly. */
  lemma GetThrustAtControlPoint(c: ThrustCurve, throttle: nat, multiplier: real)
    requires throttle in c.points
    ensures GetThrust(c, throttle, multiplier) == Scale(c.points[throttle] as real, multiplier)
  {
    BracketSpec(c, throttle);
  }

  /** Below the smallest key the thrust stays at the first control point. */
  lemma GetThrustBelowFirstKey(c: ThrustCurve, throttle: nat, multiplier: real)
    requires |c.points| != 0 && throttle < MinKey(c)
    ensures GetThrust(c, throttle, multiplier) == Scale(c.points[MinKey(c)] as real, multiplier)
  {
    BracketSpec(c, throttle);
  }

  /** Above the largest key the corrected thrust stays at the last control point. */
  lemma GetThrustAboveLastKey(c: ThrustCurve, throttle: nat, multiplier: real)
    requires |c.points| != 0 && MaxKey(c) < throttle
    ensures GetThrust(c, throttle, multiplier) == Scale(c.points[MaxKey(c)] as real, multiplier)
  {
    BracketSpec(c, throttle);
  }

  // ---------------------------------------------------------------------------
  // Interpolation between adjacent keys
  // ---------------------------------------------------------------------------

  /** Strictly between two adjacent keys the raw thrust is the straight line between them. */
  lemma RawThrustBetweenKeys(c: ThrustCurve, throttle: nat, l: nat, u: nat)
    requires l in c.points && u in c.points && l < throttle < u
    requires forall k :: k in c.points ==> k <= l || u <= k
    ensures Bracket(c, throttle) == (l, u)
    ensures RawThrust(c, throttle) == Lerp(c.points[l], c.points[u], Fraction(throttle, l, u))
  {
    BracketSpec(c, throttle);
    var b := Bracket(c, throttle);
    assert MinKey(c) <= l && u <= MaxKey(c);
    assert l <= b.0 && b.1 <= u;
  }

  /** The raw thrust lies between the values of its two brackets. */
  lemma RawThrustWithinBracket(c: ThrustCurve, throttle: nat)
    requires |c.points| != 0
    ensures var b := Bracket(c, throttle);
            var r := RawThrust(c, throttle);
            && b.0 <= b.1
            && (c.points[b.0] <= c.points[b.1] ==> c.points[b.0] as real <= r <= c.points[b.1] as real)
            && (c.points[b.1] <= c.points[b.0] ==> c.points[b.1] as real <= r <= c.points[b.0] as real)
  {
    var b := Bracket(c, throttle);
    if b.0 != b.1 {
      FractionBounds(throttle, b.0, b.1);
      LerpBetween(c.points[b.0], c.points[b.1], Fraction(throttle, b.0, b.1));
    }
  }

  /** Scaling by a non-negative multiplier keeps a value between the same scaled bounds. */
  lemma ScaleWithin(lo: real, r: real, hi: real, multiplier: real)
    requires lo <= r <= hi && 0.0 <= multiplier
    ensures Scale(lo, multiplier) <= Scale(r, multiplier) <= Scale(hi, multiplier)
  {
    ScaleMonotone(lo, r, multiplier);
    ScaleMonotone(r, hi, multiplier);
  }

  /**
   Strictly between two adjacent keys `l < t < u` the thrust is the interpolated value
   `points[l] + (t - l) / (u - l) * (points[u] - points[l])` times the multiplier, and for a
   non-negative multiplier it lies between the two control points' scaled values.
   */
  lemma GetThrustBetweenKeys(c: ThrustCurve, throttle: nat, multiplier: real, l: nat, u: nat)
    requires l in c.points && u in c.points && l < throttle < u
    requires forall k :: k in c.points ==> k <= l || u <= k
    ensures GetThrust(c, throttle, multiplier)
         == Scale(Lerp(c.points[l], c.points[u], Fraction(throttle, l, u)), multiplier)
    ensures 0.0 <= multiplier && c.points[l] <= c.points[u] ==>
              Scale(c.points[l] as real, multiplier) <= GetThrust(c, throttle, multiplier) <= Scale(c.points[u] as real, multiplier)
    ensures 0.0 <= multiplier && c.points[u] <= c.points[l] ==>
              Scale(c.points[u] as real, multiplier) <= GetThrust(c, throttle, multiplier) <= Scale(c.points[l] as real, multiplier)
  {
    RawThrustBetweenKeys(c, throttle, l, u);
    RawThrustWithinBracket(c, throttle);
    var raw := RawThrust(c, throttle);
    var lo, hi := c.points[l] as real, c.points[u] as real;
    if 0.0 <= multiplier {
      if lo <= hi {
        ScaleWithin(lo, raw, hi, multiplier);
      }
      if hi <= lo {
        ScaleWithin(hi, raw, lo, multiplier);
      }
    }
  }

  // ---------------------------------------------------------------------------
  // Monotonicity
  // ---------------------------------------------------------------------------

  /**
   Two throttles inside the key range whose brackets overlap share one segment: the lower
   bracket of the larger throttle cannot lie below the upper bracket of the smaller one
   unless both brackets are the same pair of keys.
   */
  lemma SameSegment(c: ThrustCurve, t1: nat, t2: nat)
    requires |c.points| != 0 && MinKey(c) <= t1 <= t2 <= MaxKey(c)
    requires Bracket(c, t2).0 < Bracket(c, t1).1
    ensures Bracket(c, t1) == Bracket(c, t2)
  {
    BracketSpec(c, t1);
    BracketSpec(c, t2);
    var b1 := Bracket(c, t1);
    var b2 := Bracket(c, t2);
    assert t1 !in c.points;
    assert t2 !in c.points;
    assert b2.0 < t1;
    assert t2 < b1.1;
  }

  /** For a non-decreasing table the raw thrust never decreases as the throttle grows. */
  lemma RawThrustMonotone(c: ThrustCurve, t1: nat, t2: nat)
    requires |c.points| != 0 && MonotoneCurve(c) && t1 <= t2
    ensures RawThrust(c, t1) <= RawThrust(c, t2)
  {
    BracketSpec(c, t1);
    BracketSpec(c, t2);
    RawThrustWithinBracket(c, t1);
    RawThrustWithinBracket(c, t2);
    var b1 := Bracket(c, t1);
    var b2 := Bracket(c, t2);
    if t1 < MinKey(c) {
      assert c.points[MinKey(c)] <= c.points[b2.0];
    } else if MaxKey(c) < t2 {
      assert c.points[b1.1] <= c.points[MaxKey(c)];
    } else if b1.1 <= b2.0 {
      assert c.points[b1.1] <= c.points[b2.0];
    } else {
      SameSegment(c, t1, t2);
      if b1.0 != b1.1 {
        FractionMonotone(t1, t2, b1.0, b1.1);
        LerpMonotone(c.points[b1.0], c.points[b1.1], Fraction(t1, b1.0, b1.1), Fraction(t2, b1.0, b1.1));
      }
    }
  }

  /** For a non-decreasing table and a non-negative multiplier, more throttle never gives less thrust. */
  lemma GetThrustMonotone(c: ThrustCurve, t1: nat, t2: nat, multiplier: real)
    requires MonotoneCurve(c) && t1 <= t2 && 0.0 <= multiplier
    ensures GetThrust(c, t1, multiplier) <= GetThrust(c, t2, multiplier)
  {
    if |c.points| != 0 {
      RawThrustMonotone(c, t1, t2);
      ScaleMonotone(RawThrust(c, t1), RawThrust(c, t2), multiplier);
    }
  }

  // ---------------------------------------------------------------------------
  // The as-written scan
  // ---------------------------------------------------------------------------

  /** A curve with a single control point has one key, both smallest and largest. */
  lemma SinglePoint(c: ThrustCurve)
    requires |c.points| == 1
    ensures MinKey(c) == MaxKey(c)
  {
    SortedKeysSpec(c.points.Keys);
    ScanOverKeys(c, 0, 0, 0);
  }

  /** Two or more control points have distinct smallest and largest keys. */
  lemma SeveralPoints(c: ThrustCurve)
    requires |c.points| >= 2
    ensures MinKey(c) < MaxKey(c)
  {
    SortedKeysSpec(c.points.Keys);
    ScanOverKeys(c, 0, 0, 0);
  }

  /** Wherever the as-written scan finds an upper bracket, it finds the corrected one. */
  lemma AsWrittenBracketAgrees(c: ThrustCurve, throttle: nat)
    requires |c.points| != 0
    requires |c.points| == 1 || throttle <= MaxKey(c)
    ensures BracketAsWritten(c, throttle) == Bracket(c, throttle)
  {
    ScanOverKeys(c, throttle, MinKey(c), MinKey(c));
    ScanOverKeys(c, throttle, MinKey(c), MaxKey(c));
    if |c.points| == 1 {
      SinglePoint(c);
    }
  }

  /**
   `get_thrust` as written returns the corrected thrust for every throttle up to the last key
   and for every curve with one control point; only above the last key of a curve with two or
   more points do the two differ.
   */
  lemma AsWrittenAgrees(c: ThrustCurve, throttle: nat, multiplier: real)
    requires |c.points| <= 1 || throttle <= MaxKey(c)
    ensures GetThrustAsWritten(c, throttle, multiplier) == Ok(GetThrust(c, throttle, multiplier))
  {
    if |c.points| != 0 {
      AsWrittenBracketAgrees(c, throttle);
      var raw := RawThrust(c, throttle);
      assert RawThrustAsWritten(c, throttle) == Ok(raw);
      var written := GetThrustAsWritten(c, throttle, multiplier);
      assert written.Ok? && written.value == Scale(raw, multiplier);
    }
  }

  /**
   Above the last key of a curve with two or more points, the as-written scan leaves the last
   key as the lower bracket and the first key as the upper one, so `upper_key - lower_key`
   goes below zero.
   */
  lemma AsWrittenUnderflow(c: ThrustCurve, throttle: nat, multiplier: real)
    requires |c.points| >= 2 && MaxKey(c) < throttle
    ensures BracketAsWritten(c, throttle) == (MaxKey(c), MinKey(c))
    ensures GetThrustAsWritten(c, throttle, multiplier) == Err(SubtractOverflow)
  {
    ScanOverKeys(c, throttle, MinKey(c), MinKey(c));
    SeveralPoints(c);
  }

  /**
   `get_thrust` as written fails exactly above the last key of a curve with two or more
   points, and whenever it succeeds it returns the corrected thrust.
   */
  lemma AsWrittenFailsExactly(c: ThrustCurve, throttle: nat, multiplier: real)
    ensures GetThrustAsWritten(c, throttle, multiplier).Err?
        <==> |c.points| >= 2 && MaxKey(c) < throttle
    ensures GetThrustAsWritten(c, throttle, multiplier).Ok? ==>
              GetThrustAsWritten(c, throttle, multiplier).value == GetThrust(c, throttle, multiplier)
  {
    if |c.points| >= 2 && MaxKey(c) < throttle {
      AsWrittenUnderflow(c, throttle, multiplier);
    } else {
      AsWrittenAgrees(c, throttle, multiplier);
    }
  }
}
